=== FILE: README.md ===
# Ground agent of the crop plantation simulation

This project models the ground agent (the `Tractor`) of `farming.py`, a
pygame simulation of a crop field. In each tick the agent does the following:

- It rebuilds its obstacle map from the weeds and the screen border.
- While it is harvesting and has crops left in its list, it picks the nearest
  crop if it holds none and plans a route to it. The route comes from an A\*
  search on a 50 × 40 grid of 20-pixel cells, run until it pops the goal or
  runs out of open entries.
- It then follows the route one waypoint at a time, or heads straight for the
  crop if there is no route.
- On arrival it consumes the crop: the crop leaves the world's list and the
  agent's own list.
- Every tick ends by clamping the agent's 40 × 20 footprint to the
  1000 × 800 screen.

Modules:

- `Grid` (`grid.dfy`): constants, cells, cell centres, the Manhattan
  heuristic, adjacency and walks.
- `ObstacleMap` (`obstacles.dfy`): the obstacle set rebuilt each tick.
- `AStar` (`astar.dfy`): the search as the code runs it. The open list is a
  sequence, every pushed child is kept, and a cell is expanded again each
  time one of its entries is popped.
- `AStarInvariant` (`astar_invariant.dfy`): the invariant of the search
  state. It includes a ghost record of the cost at which each cell was first
  closed.
- `AStarTheory` (`astar_theory.dfy`): the route's shape and its optimality,
  proved from that invariant.
- `Planner` (`route.dfy`): the search without a budget, as the tick runs it.
  Its route is the one every large enough budget finds.
- `TargetSelection` (`selection.dfy`): the nearest-crop scan.
- `GroundAgent` (`tractor.dfy`): the agent, its tick, consumption on
  arrival, the clamp and the harvest command.
- `OpenField` (`scenario.dfy`): worked cases on a field without weeds.

The motion itself (a float unit vector times the speed, then truncated) is
not modelled. It is a parameter `step` of the tick. The random idle jitter
is the same parameter. The arrival tests are exact: `sqrt(dx²+dy²) < 5`
holds for integer offsets exactly when `dx²+dy² < 25`, and `< 10` exactly
when `dx²+dy² < 100`. Python's `//` by the positive grid size is Dafny's
`/`.

The model follows the code as written:

- The `open_dict` check (`farming.py:251-252`) never skips a child. Each
  child is a fresh `Node`, and `Node` compares and hashes by identity, so the
  dictionary lookup never finds it. Every unclosed child is pushed.
- A popped cell that is already closed is not skipped. It is expanded again.
- The start is pushed without any check (`farming.py:211`). A goal whose four
  neighbours are all blocked therefore still gets a route from a start next
  to it, even when the start cell itself is blocked
  (`OpenField.BlockedStartReachesEnclosedGoal`). From any other start it gets
  none.
- The heap breaks ties between equal priorities in an order that depends on
  the heap's shape. The model pops the first entry of minimal priority. The
  proofs use only that the popped entry has minimal priority
  (`PoppedIsOptimal` takes any minimal index). Which of
  several shortest routes comes back, and how many pops the search takes,
  do depend on the tie order.
- A held crop that has already left the world's list is dropped without being
  removed from anything. Neither list is deduplicated.

## Model

| member | source | states |
|---|---|---|
| Grid.GridDimensions | farming.py:27-29 | The grid has the screen size divided by the cell side, rounded down, as its columns and rows |
| Grid.Center | farming.py:223-224 | A waypoint is the centre of its cell: it maps back to the cell, and both coordinates are half a cell past a multiple of the grid size |
| Grid.CenterInjective | farming.py:223-224 | Distinct cells have distinct waypoints |
| Grid.Manhattan | farming.py:201-202 | The heuristic is zero exactly when the two cells are equal |
| Grid.ManhattanSymmetric | farming.py:201-202 | The heuristic is symmetric |
| Grid.ManhattanTriangle | farming.py:201-202 | The heuristic obeys the triangle inequality, which makes it consistent for unit steps |
| Grid.AdjacentIsUnitDistance | farming.py:229-231 | Two cells are one cardinal move apart exactly when their heuristic distance is 1 |
| Grid.AdjacentCentersStepApart | farming.py:223-224 | The waypoints of two adjacent cells are one grid size apart along exactly one axis |
| Grid.WalkCoversAtMostItsLength | farming.py:229-241 | A walk of k moves changes the heuristic distance by at most k |
| Grid.Centers | farming.py:220-226 | The route has one waypoint per cell, in order. Each waypoint maps back to its cell, so distinct cells give distinct waypoints and the cells can be read back from the route |
| ObstacleMap.AddWeeds | farming.py:175-176 | After adding the weeds, a cell is in the set iff it was before or some weed stands on it |
| ObstacleMap.AddRows | farming.py:178-180 | After the row loop, the set also holds the top and bottom cell of every column |
| ObstacleMap.AddColumns | farming.py:181-183 | After the column loop, the set also holds the left and right cell of every row |
| ObstacleMap.BuiltObstacle | farming.py:173-183 | After the three loops, starting from the empty set, a cell is blocked exactly when a weed stands on it or it lies on the border |
| ObstacleMap.UpdateObstacles | farming.py:172-183 | A cell is an obstacle iff a weed stands on it or it lies on the grid's outer ring |
| ObstacleMap.BorderAlwaysBlocked | farming.py:178-183 | No border cell is passable, whatever the weeds |
| ObstacleMap.NoWeedsInteriorFree | farming.py:172-183 | With no weeds, the passable cells are exactly the interior ones |
| AStar.MovesAreCardinalSteps | farming.py:229-231 | The four moves produce exactly the cardinally adjacent cells |
| AStar.ExpandSound | farming.py:228-249 | Every pushed child is an in-bounds, unblocked, unclosed neighbour, with cost one more than its parent and priority cost plus heuristic |
| AStar.ExpandComplete | farming.py:228-254 | Every in-bounds, unblocked, unclosed neighbour is pushed |
| AStar.MinIndex | farming.py:129-130 | The popped entry has minimal priority, and no earlier entry shares it |
| AStar.RemoveAtKeepsOthers | farming.py:216 | Popping loses no other entry: what remains, plus the popped entry, is the open list up to order |
| AStarTheory.InitialInv | farming.py:205-213 | The search invariant holds for the start entry alone, with nothing closed |
| AStarTheory.Frontier | farming.py:215-254 | Along any walk from the start to an unclosed cell, some open entry has cost at most that walk position |
| AStarTheory.PoppedIsOptimal | farming.py:215-217 | An entry of minimal priority on a cell not yet closed costs no more than any walk to its cell |
| AStarTheory.ChildrenOk | farming.py:239-249 | Each child's trail is a walk from the start, with cost equal to its number of steps |
| AStarTheory.StepEntriesOk | farming.py:239-254 | After a pop and expansion, every open entry still carries a walk from the start whose length is its cost |
| AStarTheory.StepNeighboursPushed | farming.py:228-254 | After a pop and expansion, every passable, unclosed neighbour of a closed cell sits in the open list with cost at most one more than that cell's |
| AStarTheory.StepClosedOptimally | farming.py:215-217 | A cell closed for the first time is closed with a cost no greater than any walk to it |
| AStarTheory.Step | farming.py:215-254 | One pop-and-expand round that does not reach the goal preserves the search invariant |
| AStarTheory.GoalPopIsShortest | farming.py:219-226 | When the goal is popped, its trail is a shortest walk from the start |
| AStarTheory.NextStateFindsShortestWalk | farming.py:228-256 | After a pop that does not reach the goal, the loop from the next state returns nothing or a shortest walk |
| AStarTheory.LoopFindsShortestWalk | farming.py:215-258 | From any state meeting the invariant, a non-empty result is a shortest walk to the goal |
| AStarTheory.SearchFindsShortestWalk | farming.py:204-258 | A non-empty result is a walk from start to goal through passable cells that no other such walk undercuts |
| AStarTheory.SearchRouteShape | farming.py:204-258 | A returned route starts at the start's centre and ends at the goal's centre; each step moves one grid size along one axis; every later waypoint is the centre of an in-bounds, unblocked cell |
| AStarTheory.SearchRouteIsShortest | farming.py:204-258 | A returned route has at least Manhattan distance plus one waypoints and is no longer than any walk to the goal |
| AStarTheory.SearchBlockedGoal | farming.py:233-237 | A goal other than the start that is off the grid or blocked yields the empty route |
| AStarTheory.SearchEnclosedGoal | farming.py:228-237 | A goal whose four neighbours are all blocked or off the grid gets no route from a start that is neither the goal nor next to it |
| AStarTheory.FirstExpansionPopsGoal | farming.py:228-249 | Expanding the start next to a passable goal gives the goal the least priority, so its entry, with the two-cell trail, is popped next |
| AStarTheory.SearchAdjacentGoal | farming.py:204-226 | A passable goal next to the start is reached on the second pop, and the route is the two centres |
| AStarTheory.SearchSameCell | farming.py:211-226 | When start equals goal, the route is that cell's centre alone, even on a blocked cell |
| AStarTheory.LoopFuelMonotone | farming.py:215-258 | A route found within a budget of pops is the route found within any larger budget |
| AStarTheory.SearchFuelMonotone | farming.py:204-258 | The same at the level of the whole search |
| Planner.RouteAgreesWithBudget | farming.py:215-258 | Every budget that finds a route finds the route of the search without a budget |
| Planner.RouteIsShortest | farming.py:204-258 | A route of the search without a budget runs from the start's centre to the goal's centre, one grid step at a time; every later waypoint is the centre of a passable cell, and no walk to the goal is shorter |
| Planner.RouteBlockedGoal | farming.py:233-237 | A goal other than the start that is off the grid or blocked has no route |
| Planner.RouteEnclosedGoal | farming.py:228-237 | A goal walled in on all four sides has no route unless the start is the goal or next to it |
| Planner.RouteAdjacentGoal | farming.py:211-226 | The route to a passable goal next to the start is the two centres, whether or not the start is blocked |
| Planner.RouteSameCell | farming.py:211-226 | The route from a cell to itself is that cell's centre alone |
| AStarTheory.StaircaseFacts | farming.py:229-231 | A staircase of cardinal moves joins two cells within their bounding box, in Manhattan distance steps |
| AStarTheory.TightWalkApproaches | farming.py:229-241 | A walk exactly as long as the Manhattan distance gets one cell closer with each step |
| AStarTheory.SearchOpenBox | farming.py:204-258 | With nothing blocking the bounding box of start and goal, a route found has exactly Manhattan distance plus one waypoints, each one closer to the goal |
| TargetSelection.FirstNearestUnique | farming.py:193-197 | The crop the scan selects is determined by the list and the position |
| TargetSelection.Scan | farming.py:189-197 | After n crops, the scan holds nothing iff n is 0; otherwise it holds the earliest crop of minimal squared distance among them |
| TargetSelection.FindNearestCrop | farming.py:185-199 | No crop is returned iff the list is empty; otherwise the result has minimal squared distance and every earlier crop is strictly farther |
| GroundAgent.RemoveFirst | farming.py:273-274 | Removing a crop in the list drops one occurrence of it; removing a crop that is absent changes nothing |
| GroundAgent.RemoveFirstSplits | farming.py:273-274 | Removal takes out the first occurrence and keeps the elements before and after it in order, as `list.remove` does |
| GroundAgent.RemoveFirstDistinct | farming.py:273-274 | In a list without duplicates, removal leaves exactly the other elements and no duplicates |
| GroundAgent.Consume | farming.py:271-275 | On arrival the agent holds no crop and nothing else about it changes but its list. A crop still in the world leaves the world's list and the agent's list at its first occurrence, the rest keeping their order. A crop already gone leaves both lists exactly as they were |
| GroundAgent.FollowPath | farming.py:260-283 | Route following keeps the held crop in the agent's list while it is in the world |
| GroundAgent.MoveDirectly | farming.py:285-304 | Direct approach keeps the held crop in the agent's list while it is in the world |
| GroundAgent.Acquire | farming.py:153-158 | With crops listed, the agent holds the earliest nearest crop and the route the search, run to completion, finds from its own cell to that crop's cell; with none, it holds nothing |
| GroundAgent.AcquirePlansShortestRoute | farming.py:153-158 | A route planned to the picked crop runs from the centre of the agent's cell to the centre of the crop's cell, and no walk between them is shorter |
| GroundAgent.Clamp | farming.py:169-170 | The footprint ends inside the screen, and only the position changes. An on-screen position is kept; each overshoot is pulled to the nearest edge |
| GroundAgent.HarvestStep | farming.py:152-163 | The harvesting branch, planning with the search run to completion, keeps the held crop in the agent's list while it is in the world |
| GroundAgent.Update | farming.py:149-170 | After every tick the footprint is on screen, and the held crop stays in the agent's list while it is in the world |
| GroundAgent.ConsumeEffect | farming.py:271-275 | Consuming clears the held crop and the route and removes the crop from both lists, exactly when it was still in the world |
| GroundAgent.UpdateConsumesAtLastWaypoint | farming.py:269-276 | Within 5 pixels of the final waypoint, the tick consumes the held crop: it leaves both lists at its first occurrence, the rest in order, and a crop already gone leaves them as they were |
| GroundAgent.UpdateDropsReachedWaypoint | farming.py:269-270 | Within 5 pixels of a waypoint that is not the last, the tick drops only that waypoint, and the crop lists are untouched |
| GroundAgent.UpdateConsumesOnDirectArrival | farming.py:293-297 | With no route and within 10 pixels of the held crop, the tick consumes it in the same way |
| GroundAgent.HeldStepKeepsRoute | farming.py:160-163 | While a crop is held, the harvesting branch keeps the route or drops its first waypoint |
| GroundAgent.UpdateKeepsRouteWhileHolding | farming.py:152-163 | A route is replaced only when a new crop is picked; while one is held, a tick keeps the route or drops its first waypoint |
| GroundAgent.UpdateIdle | farming.py:165-170 | A tick that is not harvesting leaves the task, the lists, the route and the held crop alone. It moves the agent by the step, which is kept when it stays on screen |
| GroundAgent.StepKeepsOrDropsTarget | farming.py:260-304 | Following or approaching never switches the held crop; it can only drop it |
| GroundAgent.PickStepTakesNearest | farming.py:152-163 | Holding none, the harvesting branch picks the earliest nearest crop, and a crop still held afterwards is that one |
| GroundAgent.UpdatePicksNearest | farming.py:152-163 | The same for a whole tick |
| GroundAgent.StepRemovesAtMostTarget | farming.py:260-304 | Following or approaching changes each crop list at most by removing the held crop once |
| GroundAgent.HarvestStepKeepsDistinct | farming.py:152-163 | The harvesting branch keeps both crop lists free of duplicates |
| GroundAgent.UpdateKeepsDistinct | farming.py:149-170 | A tick keeps both crop lists free of duplicates |
| GroundAgent.MaturedCrops | farming.py:307 | The list holds exactly the matured crops of the world, and no more crops than the world; when every crop has matured it is the world's list itself |
| GroundAgent.MaturedCropsAppend | farming.py:307 | Filtering keeps the world's order: the matured crops of two lists joined are those of the first followed by those of the second |
| GroundAgent.StartHarvest | farming.py:306-309 | The harvest command sets the task to harvesting and lists the matured crops in world order. The world's crops, the position, the route and the held crop are untouched |
| GroundAgent.StartHarvestKeepsTracked | farming.py:365-367 | Re-issuing the command while a matured crop is held keeps that crop in the agent's list while it is in the world |
| OpenField.InteriorBoxFree | farming.py:172-183 | With no weeds, no cell of the bounding box of two interior cells is blocked |
| OpenField.InteriorRouteIsManhattan | farming.py:204-258 | With no weeds, a route between interior cells has Manhattan distance plus one waypoints, runs from centre to centre and approaches the goal by one cell per step |
| OpenField.CornerToInteriorRoute | farming.py:204-258 | With no weeds, a route from cell (1, 1) to cell (8, 6) has 13 waypoints, from pixel (30, 30) to pixel (170, 130); `OpenField.NeighbourRoute` shows the search does return routes |
| OpenField.BorderCropHasNoRoute | farming.py:178-183 | A crop in column 0 or row 0 gets no route from the search run to completion unless the agent is in its cell, so the agent approaches it directly |
| OpenField.NeighbourRoute | farming.py:204-226 | With no weeds, the route from cell (1, 1) to cell (2, 1) is pixel (30, 30) then pixel (50, 30) |
| OpenField.BlockedStartReachesEnclosedGoal | farming.py:211-237 | A blocked start next to a walled-in goal still gets the two-centre route into it |

## Left out

- Rendering, the event loop, the day/night cycle and temperature are left out. They do not affect the agent's decisions.
- The drone (`Drone`, `farming.py:62-118`) is outside the ground agent and is left out.
- Crop and weed growth timers are left out. `matured` is a parameter of the harvest command, and the weeds of a tick are a parameter of the tick.
- Weeds expiring and the `remove_weeds` task (`farming.py:383-388`) are left out. The tick models that task as not harvesting (`Idle`).
- Random placement of the agent, crops and weeds is left out. Positions are inputs.
- The float motion toward a waypoint or crop, and the idle jitter, are left out. Both are the `step` parameter of a tick.
- `Tractor.obstacles` is not kept as a field. The map is rebuilt at the start of every tick and only that tick's search reads it.
- AStar.Search: takes a budget `fuel` that bounds the number of pops, which the code does not have. An exhausted budget returns the empty route, so every property of a route is stated for non-empty results. The tick does not use a budget: it plans with `Planner.Route`.
- Planner.Route: the code's loop runs until the goal is popped or the open list is empty. The model takes its result to be the route that any large enough budget finds, and the empty list when no budget finds one. That the loop always stops is not proved.
- GroundAgent.Acquire: a planned route is proved shortest when it is non-empty. That a crop reachable by some walk always gets a non-empty route (completeness of the search) is not proved.
- AStar.MinIndex: breaks ties by position in the open list, while the heap's tie order depends on its layout. The proofs use only that the popped entry has minimal priority (`PoppedIsOptimal` takes any minimal index); which shortest route comes back, and the number of pops, depend on the tie order.
- GroundAgent.Update: requires that a held crop still in the world is also in the agent's list. The code would raise `ValueError` from `target_crops.remove` if it were not. `StartHarvestKeepsTracked` shows the harvest command keeps this condition.
- GroundAgent.FollowPath: the position change away from a waypoint is the abstract `step`, not the unit vector times the speed, truncated.

=== FILE: astar.dfy ===
/** The ground agent's grid search: a 4-neighbour, unit-cost A* with the
    Manhattan heuristic, returning the route as a list of cell centres, or the
    empty list when the open list runs out.

    The open list is a sequence of entries. Every entry carries the route that
    led to it (standing for the chain of parent links), so a found route is
    read off the popped entry directly. An expansion budget `fuel` bounds the
    number of pops; an exhausted budget also yields the empty list. */
module AStar {
  import opened Grid

  /** An open-list entry: the priority `f` it was pushed with, its cost `g`
      from the start, its cell, and the cells from the start to that cell. */
  datatype Entry = Entry(f: int, g: nat, cell: Cell, trail: seq<Cell>)

  /** The four moves, in the order `a_star_search` in farming.py tries them: up, down, left, right. */
  const Moves: seq<(int, int)> := [(0, -1), (0, 1), (-1, 0), (1, 0)]

  function Neighbour(c: Cell, move: (int, int)): Cell
  {
    (c.0 + move.0, c.1 + move.1)
  }

  /** Every move is one cardinal step, and every cardinal step is one of the moves. */
  lemma MovesAreCardinalSteps(c: Cell, n: Cell)
    ensures Adjacent(c, n) <==> exists move :: move in Moves && n == Neighbour(c, move)
  {
    if Adjacent(c, n) {
      if n.0 == c.0 && n.1 == c.1 - 1 {
        assert n == Neighbour(c, Moves[0]);
      } else if n.0 == c.0 && n.1 == c.1 + 1 {
        assert n == Neighbour(c, Moves[1]);
      } else if n.0 == c.0 - 1 {
        assert n == Neighbour(c, Moves[2]);
      } else {
        assert n == Neighbour(c, Moves[3]);
      }
    }
  }

  /** The start node is pushed with priority 0 and cost 0, without any check. */
  function StartEntry(start: Cell): Entry
  {
    Entry(0, 0, start, [start])
  }

  /** A child one step further: cost one more than its parent, priority its
      cost plus the Manhattan distance to the goal. */
  function Child(parent: Entry, n: Cell, goal: Cell): Entry
  {
    Entry(parent.g + 1 + Manhattan(n, goal), parent.g + 1, n, parent.trail + [n])
  }

  /** The children pushed when `parent` is expanded, trying `moves` in order:
      a neighbour is skipped when it is off the grid, blocked or closed. */
  function Expand(parent: Entry, goal: Cell, obstacles: set<Cell>, closed: set<Cell>,
                  moves: seq<(int, int)>): seq<Entry>
  {
    if moves == [] then []
    else
      var n := Neighbour(parent.cell, moves[0]);
      var later := Expand(parent, goal, obstacles, closed, moves[1..]);
      if !InBounds(n) || n in obstacles || n in closed then later
      else [Child(parent, n, goal)] + later
  }

  /** Every pushed child is a passable, unclosed neighbour of its parent, one
      step costlier than it. */
  lemma {:induction false} ExpandSound(parent: Entry, goal: Cell, obstacles: set<Cell>,
                                       closed: set<Cell>, moves: seq<(int, int)>, k: int)
    requires 0 <= k < |Expand(parent, goal, obstacles, closed, moves)|
    ensures var child := Expand(parent, goal, obstacles, closed, moves)[k];
            && child == Child(parent, child.cell, goal)
            && Passable(child.cell, obstacles)
            && child.cell !in closed
            && exists move :: move in moves && child.cell == Neighbour(parent.cell, move)
  {
    var n := Neighbour(parent.cell, moves[0]);
    if !InBounds(n) || n in obstacles || n in closed {
      ExpandSound(parent, goal, obstacles, closed, moves[1..], k);
      var child := Expand(parent, goal, obstacles, closed, moves)[k];
      var move :| move in moves[1..] && child.cell == Neighbour(parent.cell, move);
      assert move in moves;
    } else if k == 0 {
      assert moves[0] in moves;
    } else {
      ExpandSound(parent, goal, obstacles, closed, moves[1..], k - 1);
      var child := Expand(parent, goal, obstacles, closed, moves)[k];
      var move :| move in moves[1..] && child.cell == Neighbour(parent.cell, move);
      assert move in moves;
    }
  }

  /** Every passable, unclosed neighbour reached by one of `moves` is pushed. */
  lemma {:induction false} ExpandComplete(parent: Entry, goal: Cell, obstacles: set<Cell>,
                                          closed: set<Cell>, moves: seq<(int, int)>, move: (int, int))
    requires move in moves
    requires Passable(Neighbour(parent.cell, move), obstacles) && Neighbour(parent.cell, move) !in closed
    ensures exists k :: 0 <= k < |Expand(parent, goal, obstacles, closed, moves)|
                        && Expand(parent, goal, obstacles, closed, moves)[k].cell == Neighbour(parent.cell, move)
  {
    var n := Neighbour(parent.cell, moves[0]);
    var children := Expand(parent, goal, obstacles, closed, moves);
    if move == moves[0] {
      assert children[0].cell == n;
    } else {
      assert move in moves[1..];
      ExpandComplete(parent, goal, obstacles, closed, moves[1..], move);
      var later := Expand(parent, goal, obstacles, closed, moves[1..]);
      var k :| 0 <= k < |later| && later[k].cell == Neighbour(parent.cell, move);
      if !InBounds(n) || n in obstacles || n in closed {
        assert children[k].cell == Neighbour(parent.cell, move);
      } else {
        assert children[k + 1].cell == Neighbour(parent.cell, move);
      }
    }
  }

  /** The entry popped from the open list: the first one of minimal priority. */
  function MinIndex(open: seq<Entry>): (i: nat)
    requires |open| > 0
    ensures i < |open|
    ensures forall k :: 0 <= k < |open| ==> open[i].f <= open[k].f
    ensures forall k :: 0 <= k < i ==> open[k].f > open[i].f
  {
    if |open| == 1 then 0
    else
      var j := MinIndex(open[1..]) + 1;
      if open[0].f <= open[j].f then 0 else j
  }

  /** The open list without its entry at index `i`. */
  function RemoveAt(open: seq<Entry>, i: nat): (rest: seq<Entry>)
    requires i < |open|
    ensures |rest| == |open| - 1
    ensures forall k :: 0 <= k < i ==> rest[k] == open[k]
    ensures forall k :: i < k < |open| ==> rest[k - 1] == open[k]
  {
    open[..i] + open[i + 1..]
  }

  /** Popping loses no other entry: the rest together with the popped entry
      is the open list, up to order. */
  lemma RemoveAtKeepsOthers(open: seq<Entry>, i: nat)
    requires i < |open|
    ensures multiset(RemoveAt(open, i)) + multiset{open[i]} == multiset(open)
  {
    assert open == open[..i] + [open[i]] + open[i + 1..];
  }

  /** The search loop: pop an entry of minimal priority and close its cell; on
      the goal, return the cells from the start to it; otherwise push the
      children and go on. A cell is closed again, and expanded again, each time
      one of its entries is popped. */
  function Loop(goal: Cell, obstacles: set<Cell>, open: seq<Entry>, closed: set<Cell>, fuel: nat): seq<Cell>
    decreases fuel
  {
    if fuel == 0 || |open| == 0 then []
    else
      var i := MinIndex(open);
      var current := open[i];
      var closed' := closed + {current.cell};
      if current.cell == goal then current.trail
      else
        var open' := RemoveAt(open, i) + Expand(current, goal, obstacles, closed', Moves);
        Loop(goal, obstacles, open', closed', fuel - 1)
  }

  /** The search from `start` to `goal`, with at most `fuel` pops: the centres
      of the cells of the route found, or the empty list. */
  function Search(start: Cell, goal: Cell, obstacles: set<Cell>, fuel: nat): seq<Point>
  {
    Centers(Loop(goal, obstacles, [StartEntry(start)], {}, fuel))
  }

  /** The loop, run from this state, returns either nothing or a shortest walk
      from the start to the goal. */
  ghost predicate LoopOk(start: Cell, goal: Cell, obstacles: set<Cell>, open: seq<Entry>,
                         closed: set<Cell>, fuel: nat)
  {
    var trail := Loop(goal, obstacles, open, closed, fuel);
    trail != [] ==> ShortestWalk(trail, start, goal, obstacles)
  }
}

=== FILE: astar_invariant.dfy ===
/** The invariant of the grid search's state: the open list, the closed set and,
    as a ghost map, the cost with which each closed cell was first closed. */
module AStarInvariant {
  import opened Grid
  import opened AStar

  /** The shape of every entry: its trail is a walk from the start to its cell,
      its cost is the trail's number of steps, and its priority is cost plus
      heuristic (the start entry alone has priority 0). */
  ghost predicate EntryOk(e: Entry, start: Cell, goal: Cell, obstacles: set<Cell>)
  {
    && IsWalk(e.trail, start, obstacles)
    && e.g == |e.trail| - 1
    && e.cell == e.trail[|e.trail| - 1]
    && (e.f == e.g + Manhattan(e.cell, goal) || (e.g == 0 && e.f == 0))
  }

  /** Some open entry stands on `n` with cost at most `bound`. */
  ghost predicate Reached(open: seq<Entry>, n: Cell, bound: int)
  {
    exists k :: 0 <= k < |open| && open[k].cell == n && open[k].g <= bound
  }

  ghost predicate EntriesOk(open: seq<Entry>, start: Cell, goal: Cell, obstacles: set<Cell>)
  {
    forall k {:trigger EntryOk(open[k], start, goal, obstacles)} :: 0 <= k < |open| ==> EntryOk(open[k], start, goal, obstacles)
  }

  /** `n` is a neighbour of `c` that an expansion of `c` would push now. */
  ghost predicate Pushable(c: Cell, n: Cell, obstacles: set<Cell>, closed: set<Cell>)
  {
    Adjacent(c, n) && Passable(n, obstacles) && n !in closed
  }

  /** Every closed cell has pushed each passable, unclosed neighbour, one step costlier. */
  ghost predicate NeighboursPushed(obstacles: set<Cell>, open: seq<Entry>, closed: set<Cell>,
                                   firstCost: map<Cell, nat>)
    requires firstCost.Keys == closed
  {
    forall c, n :: c in closed && Pushable(c, n, obstacles, closed) ==> Reached(open, n, firstCost[c] + 1)
  }

  /** Position `i` of walk `w` is a closed cell. */
  ghost predicate ClosedOnWalk(w: seq<Cell>, i: int, start: Cell, obstacles: set<Cell>, closed: set<Cell>)
  {
    IsWalk(w, start, obstacles) && 0 <= i < |w| && w[i] in closed
  }

  /** A cell is first closed with a cost no greater than any walk to it. */
  ghost predicate ClosedOptimally(start: Cell, obstacles: set<Cell>, closed: set<Cell>,
                                  firstCost: map<Cell, nat>)
    requires firstCost.Keys == closed
  {
    forall w, i :: ClosedOnWalk(w, i, start, obstacles, closed) ==> firstCost[w[i]] <= i
  }

  /** The search invariant. `firstCost` maps each closed cell to the cost with
      which it was first closed. */
  ghost predicate SearchInv(start: Cell, goal: Cell, obstacles: set<Cell>,
                            open: seq<Entry>, closed: set<Cell>, firstCost: map<Cell, nat>)
  {
    && EntriesOk(open, start, goal, obstacles)
    && firstCost.Keys == closed
    && goal !in closed
    && (start !in closed ==> Reached(open, start, 0))
    && NeighboursPushed(obstacles, open, closed, firstCost)
    && ClosedOptimally(start, obstacles, closed, firstCost)
  }
}

=== FILE: astar_theory.dfy ===
/** What the grid search guarantees of every route it returns: it starts at the
    start cell, ends at the goal, moves one cardinal cell per step through
    passable cells only, and is no longer than any other such walk.

    The proof follows the search state. Besides the open list and the closed
    set it tracks, as a ghost map, the cost with which each cell was first
    closed; with the consistent Manhattan heuristic that cost is never more
    than the length of any walk to the cell. */
module AStarTheory {
  import opened Grid
  import opened AStar
  import opened AStarInvariant

  lemma InitialInv(start: Cell, goal: Cell, obstacles: set<Cell>)
    ensures SearchInv(start, goal, obstacles, [StartEntry(start)], {}, map[])
  {
    assert IsWalk([start], start, obstacles);
    assert [StartEntry(start)][0].cell == start;
  }

  /** Along any walk to a cell that is not closed there is an open entry on the
      walk whose cost is no more than its position on the walk. */
  lemma {:induction false} Frontier(start: Cell, goal: Cell, obstacles: set<Cell>, open: seq<Entry>,
                                    closed: set<Cell>, firstCost: map<Cell, nat>, w: seq<Cell>, k: int)
    requires SearchInv(start, goal, obstacles, open, closed, firstCost)
    requires IsWalk(w, start, obstacles) && 0 <= k < |w| && w[k] !in closed
    ensures exists j :: 0 <= j <= k && Reached(open, w[j], j)
    decreases k
  {
    if w[0] !in closed {
      assert Reached(open, w[0], 0);
    } else if w[k - 1] !in closed {
      Frontier(start, goal, obstacles, open, closed, firstCost, w, k - 1);
      var j :| 0 <= j <= k - 1 && Reached(open, w[j], j);
    } else {
      var c := w[k - 1];
      assert ClosedOnWalk(w, k - 1, start, obstacles, closed);
      assert firstCost[c] <= k - 1;
      assert Pushable(c, w[k], obstacles, closed);
      assert Reached(open, w[k], firstCost[c] + 1);
      var e :| 0 <= e < |open| && open[e].cell == w[k] && open[e].g <= firstCost[c] + 1;
      assert Reached(open, w[k], k);
    }
  }

  /** An entry of minimal priority on a cell not yet closed has a cost no
      greater than the length of any walk to its cell: the optimality of A*
      under a consistent heuristic. */
  lemma PoppedIsOptimal(start: Cell, goal: Cell, obstacles: set<Cell>, open: seq<Entry>,
                        closed: set<Cell>, firstCost: map<Cell, nat>, m: int, w: seq<Cell>, i: int)
    requires SearchInv(start, goal, obstacles, open, closed, firstCost)
    requires 0 <= m < |open| && forall k :: 0 <= k < |open| ==> open[m].f <= open[k].f
    requires IsWalk(w, start, obstacles) && 0 <= i < |w| && w[i] == open[m].cell && w[i] !in closed
    ensures open[m].g <= i
  {
    var p := open[m];
    if p.g != 0 {
      assert EntryOk(p, start, goal, obstacles);
      Frontier(start, goal, obstacles, open, closed, firstCost, w, i);
      var j :| 0 <= j <= i && Reached(open, w[j], j);
      var k :| 0 <= k < |open| && open[k].cell == w[j] && open[k].g <= j;
      var e := open[k];
      assert EntryOk(e, start, goal, obstacles);
      assert e.f <= e.g + Manhattan(w[j], goal);
      WalkCoversAtMostItsLength(w, j, i);
      ManhattanTriangle(w[j], w[i], goal);
      assert p.g + Manhattan(w[i], goal) == p.f <= e.f;
    }
  }

  /** Extending a walk by a cardinal step into a passable cell gives a walk. */
  lemma ExtendWalk(w: seq<Cell>, start: Cell, obstacles: set<Cell>, n: Cell)
    requires IsWalk(w, start, obstacles)
    requires Adjacent(w[|w| - 1], n) && Passable(n, obstacles)
    ensures IsWalk(w + [n], start, obstacles)
  {
    var w' := w + [n];
    assert forall i :: 0 <= i < |w| ==> w'[i] == w[i];
  }

  /** The entries a pop pushes are well formed. */
  lemma ChildrenOk(start: Cell, goal: Cell, obstacles: set<Cell>, p: Entry, closed: set<Cell>)
    requires EntryOk(p, start, goal, obstacles)
    ensures forall k :: 0 <= k < |Expand(p, goal, obstacles, closed, Moves)| ==>
              EntryOk(Expand(p, goal, obstacles, closed, Moves)[k], start, goal, obstacles)
  {
    var kids := Expand(p, goal, obstacles, closed, Moves);
    forall k | 0 <= k < |kids|
      ensures EntryOk(kids[k], start, goal, obstacles)
    {
      ExpandSound(p, goal, obstacles, closed, Moves, k);
      var n := kids[k].cell;
      MovesAreCardinalSteps(p.cell, n);
      ExtendWalk(p.trail, start, obstacles, n);
    }
  }

  /** Removing the popped entry keeps every other cell reached. */
  lemma ReachedAfterPop(open: seq<Entry>, m: int, kids: seq<Entry>, n: Cell, b: int)
    requires 0 <= m < |open|
    requires Reached(open, n, b) && n != open[m].cell
    ensures Reached(RemoveAt(open, m) + kids, n, b)
  {
    var open' := RemoveAt(open, m) + kids;
    var k :| 0 <= k < |open| && open[k].cell == n && open[k].g <= b;
    if k < m {
      assert open'[k] == open[k];
    } else {
      assert open'[k - 1] == open[k];
    }
  }

  lemma StepEntriesOk(start: Cell, goal: Cell, obstacles: set<Cell>, open: seq<Entry>, m: int, closed': set<Cell>)
    requires EntriesOk(open, start, goal, obstacles) && 0 <= m < |open|
    ensures EntriesOk(RemoveAt(open, m) + Expand(open[m], goal, obstacles, closed', Moves), start, goal, obstacles)
  {
    var rest := RemoveAt(open, m);
    var kids := Expand(open[m], goal, obstacles, closed', Moves);
    var open' := rest + kids;
    ChildrenOk(start, goal, obstacles, open[m], closed');
    forall k | 0 <= k < |open'|
      ensures EntryOk(open'[k], start, goal, obstacles)
    {
      if k < |rest| {
        if k < m {
          assert open'[k] == open[k];
        } else {
          assert open'[k] == open[k + 1];
        }
      } else {
        assert open'[k] == kids[k - |rest|];
      }
    }
  }

  lemma StepNeighboursPushed(start: Cell, goal: Cell, obstacles: set<Cell>, open: seq<Entry>,
                             closed: set<Cell>, firstCost: map<Cell, nat>, m: int)
    requires firstCost.Keys == closed && NeighboursPushed(obstacles, open, closed, firstCost)
    requires 0 <= m < |open|
    ensures var p := open[m];
            var closed' := closed + {p.cell};
            var firstCost' := if p.cell in closed then firstCost else firstCost[p.cell := p.g];
            firstCost'.Keys == closed' &&
            NeighboursPushed(obstacles, RemoveAt(open, m) + Expand(p, goal, obstacles, closed', Moves),
                             closed', firstCost')
  {
    var p := open[m];
    var c := p.cell;
    var closed' := closed + {c};
    var kids := Expand(p, goal, obstacles, closed', Moves);
    var rest := RemoveAt(open, m);
    var open' := rest + kids;
    var firstCost' := if c in closed then firstCost else firstCost[c := p.g];
    forall c0, n | c0 in closed' && Pushable(c0, n, obstacles, closed')
      ensures Reached(open', n, firstCost'[c0] + 1)
    {
      if c0 in closed {
        assert firstCost'[c0] == firstCost[c0];
        assert Pushable(c0, n, obstacles, closed);
        assert Reached(open, n, firstCost[c0] + 1);
        ReachedAfterPop(open, m, kids, n, firstCost[c0] + 1);
      } else {
        assert c0 == c && firstCost'[c0] == p.g;
        MovesAreCardinalSteps(c, n);
        var move :| move in Moves && n == Neighbour(c, move);
        ExpandComplete(p, goal, obstacles, closed', Moves, move);
        var k :| 0 <= k < |kids| && kids[k].cell == n;
        ExpandSound(p, goal, obstacles, closed', Moves, k);
        assert open'[|rest| + k] == kids[k];
      }
    }
  }

  lemma StepClosedOptimally(start: Cell, goal: Cell, obstacles: set<Cell>, open: seq<Entry>,
                            closed: set<Cell>, firstCost: map<Cell, nat>)
    requires SearchInv(start, goal, obstacles, open, closed, firstCost) && |open| > 0
    ensures var p := open[MinIndex(open)];
            var closed' := closed + {p.cell};
            var firstCost' := if p.cell in closed then firstCost else firstCost[p.cell := p.g];
            firstCost'.Keys == closed' && ClosedOptimally(start, obstacles, closed', firstCost')
  {
    var m := MinIndex(open);
    var p := open[m];
    var closed' := closed + {p.cell};
    var firstCost' := if p.cell in closed then firstCost else firstCost[p.cell := p.g];
    forall w, i | ClosedOnWalk(w, i, start, obstacles, closed')
      ensures firstCost'[w[i]] <= i
    {
      if w[i] in closed {
        assert ClosedOnWalk(w, i, start, obstacles, closed);
      } else {
        PoppedIsOptimal(start, goal, obstacles, open, closed, firstCost, m, w, i);
      }
    }
  }

  /** One step of the loop on a cell other than the goal keeps the invariant. */
  lemma Step(start: Cell, goal: Cell, obstacles: set<Cell>, open: seq<Entry>,
             closed: set<Cell>, firstCost: map<Cell, nat>) returns (firstCost': map<Cell, nat>)
    requires SearchInv(start, goal, obstacles, open, closed, firstCost)
    requires |open| > 0 && open[MinIndex(open)].cell != goal
    ensures var m := MinIndex(open);
            var p := open[m];
            var closed' := closed + {p.cell};
            SearchInv(start, goal, obstacles, RemoveAt(open, m) + Expand(p, goal, obstacles, closed', Moves),
                      closed', firstCost')
  {
    var m := MinIndex(open);
    var p := open[m];
    var closed' := closed + {p.cell};
    var kids := Expand(p, goal, obstacles, closed', Moves);
    firstCost' := if p.cell in closed then firstCost else firstCost[p.cell := p.g];
    StepEntriesOk(start, goal, obstacles, open, m, closed');
    StepNeighboursPushed(start, goal, obstacles, open, closed, firstCost, m);
    StepClosedOptimally(start, goal, obstacles, open, closed, firstCost);
    if start !in closed' {
      ReachedAfterPop(open, m, kids, start, 0);
    }
  }

  /** When the goal is popped, its trail is a shortest walk to it. */
  lemma GoalPopIsShortest(start: Cell, goal: Cell, obstacles: set<Cell>, open: seq<Entry>,
                          closed: set<Cell>, firstCost: map<Cell, nat>)
    requires SearchInv(start, goal, obstacles, open, closed, firstCost)
    requires |open| > 0 && open[MinIndex(open)].cell == goal
    ensures ShortestWalk(open[MinIndex(open)].trail, start, goal, obstacles)
  {
    var m := MinIndex(open);
    var p := open[m];
    assert EntryOk(p, start, goal, obstacles);
    forall w | WalkTo(w, start, goal, obstacles)
      ensures |p.trail| <= |w|
    {
      PoppedIsOptimal(start, goal, obstacles, open, closed, firstCost, m, w, |w| - 1);
    }
  }

  /** A pop of a cell other than the goal hands the loop on to the next state. */
  lemma LoopContinues(goal: Cell, obstacles: set<Cell>, open: seq<Entry>, closed: set<Cell>, fuel: nat)
    requires fuel > 0 && |open| > 0 && open[MinIndex(open)].cell != goal
    ensures var p := open[MinIndex(open)];
            var closed' := closed + {p.cell};
            Loop(goal, obstacles, open, closed, fuel)
            == Loop(goal, obstacles, RemoveAt(open, MinIndex(open)) + Expand(p, goal, obstacles, closed', Moves),
                    closed', fuel - 1)
  {
  }

  /** Popping the goal returns a shortest walk. */
  lemma GoalPopLoopOk(start: Cell, goal: Cell, obstacles: set<Cell>, open: seq<Entry>,
                      closed: set<Cell>, firstCost: map<Cell, nat>, fuel: nat)
    requires SearchInv(start, goal, obstacles, open, closed, firstCost)
    requires fuel > 0 && |open| > 0 && open[MinIndex(open)].cell == goal
    ensures LoopOk(start, goal, obstacles, open, closed, fuel)
  {
    GoalPopIsShortest(start, goal, obstacles, open, closed, firstCost);
  }

  /** What holds of the route from the next state holds of the route now. */
  lemma ShortestWalkCarriesBack(start: Cell, goal: Cell, obstacles: set<Cell>, open: seq<Entry>,
                                closed: set<Cell>, fuel: nat, open': seq<Entry>, closed': set<Cell>)
    requires fuel > 0 && |open| > 0 && open[MinIndex(open)].cell != goal
    requires closed' == closed + {open[MinIndex(open)].cell}
    requires open' == RemoveAt(open, MinIndex(open)) + Expand(open[MinIndex(open)], goal, obstacles, closed', Moves)
    requires LoopOk(start, goal, obstacles, open', closed', fuel - 1)
    ensures LoopOk(start, goal, obstacles, open, closed, fuel)
  {
    LoopContinues(goal, obstacles, open, closed, fuel);
  }

  /** Every route the loop returns from an invariant state is a shortest walk
      from the start to the goal. */
  lemma {:induction false} LoopFindsShortestWalk(start: Cell, goal: Cell, obstacles: set<Cell>,
                                                 open: seq<Entry>, closed: set<Cell>,
                                                 firstCost: map<Cell, nat>, fuel: nat)
    requires SearchInv(start, goal, obstacles, open, closed, firstCost)
    ensures LoopOk(start, goal, obstacles, open, closed, fuel)
    decreases fuel, 1
  {
    if fuel == 0 || |open| == 0 {
      assert Loop(goal, obstacles, open, closed, fuel) == [];
    } else if open[MinIndex(open)].cell == goal {
      GoalPopLoopOk(start, goal, obstacles, open, closed, firstCost, fuel);
    } else {
      var m := MinIndex(open);
      var closed' := closed + {open[m].cell};
      var open' := RemoveAt(open, m) + Expand(open[m], goal, obstacles, closed', Moves);
      NextStateFindsShortestWalk(start, goal, obstacles, open, closed, firstCost, fuel, open', closed');
      ShortestWalkCarriesBack(start, goal, obstacles, open, closed, fuel, open', closed');
    }
  }

  /** After a pop of a cell other than the goal, the loop from the next state
      returns nothing or a shortest walk. */
  lemma {:induction false} NextStateFindsShortestWalk(start: Cell, goal: Cell, obstacles: set<Cell>,
                                                      open: seq<Entry>, closed: set<Cell>,
                                                      firstCost: map<Cell, nat>, fuel: nat,
                                                      open': seq<Entry>, closed': set<Cell>)
    requires SearchInv(start, goal, obstacles, open, closed, firstCost)
    requires fuel > 0 && |open| > 0 && open[MinIndex(open)].cell != goal
    requires closed' == closed + {open[MinIndex(open)].cell}
    requires open' == RemoveAt(open, MinIndex(open)) + Expand(open[MinIndex(open)], goal, obstacles, closed', Moves)
    ensures LoopOk(start, goal, obstacles, open', closed', fuel - 1)
    decreases fuel, 0
  {
    var firstCost' := Step(start, goal, obstacles, open, closed, firstCost);
    LoopFindsShortestWalk(start, goal, obstacles, open', closed', firstCost', fuel - 1);
  }

  /** A non-empty route of the search runs through the cells of a shortest walk. */
  lemma SearchFindsShortestWalk(start: Cell, goal: Cell, obstacles: set<Cell>, fuel: nat)
    ensures var trail := Loop(goal, obstacles, [StartEntry(start)], {}, fuel);
            trail != [] ==> ShortestWalk(trail, start, goal, obstacles)
  {
    InitialInv(start, goal, obstacles);
    LoopFindsShortestWalk(start, goal, obstacles, [StartEntry(start)], {}, map[], fuel);
  }

  /** The shape of every route the search returns: it starts at the centre of
      the start, ends at the centre of the goal, moves `GridSize` pixels along
      one axis per step, and every waypoint after the first is the centre of an
      in-bounds, unblocked cell. */
  lemma SearchRouteShape(start: Cell, goal: Cell, obstacles: set<Cell>, fuel: nat)
    ensures var route := Search(start, goal, obstacles, fuel);
            route != [] ==>
              && route[0] == Center(start)
              && route[|route| - 1] == Center(goal)
              && (forall i :: 0 <= i < |route| - 1 ==> StepApart(route[i], route[i + 1]))
              && (forall i :: 1 <= i < |route| ==>
                    route[i] == Center(CellOf(route[i])) && Passable(CellOf(route[i]), obstacles))
  {
    var trail := Loop(goal, obstacles, [StartEntry(start)], {}, fuel);
    var route := Search(start, goal, obstacles, fuel);
    SearchFindsShortestWalk(start, goal, obstacles, fuel);
    if route != [] {
      forall i | 0 <= i < |route| - 1
        ensures StepApart(route[i], route[i + 1])
      {
        AdjacentCentersStepApart(trail[i], trail[i + 1]);
      }
    }
  }

  /** No walk from the start to the goal is shorter than a route the search
      returns, and none is shorter than the Manhattan distance plus one. */
  lemma SearchRouteIsShortest(start: Cell, goal: Cell, obstacles: set<Cell>, fuel: nat)
    ensures var route := Search(start, goal, obstacles, fuel);
            route != [] ==>
              && Manhattan(start, goal) + 1 <= |route|
              && forall w :: WalkTo(w, start, goal, obstacles) ==> |route| <= |w|
  {
    var trail := Loop(goal, obstacles, [StartEntry(start)], {}, fuel);
    SearchFindsShortestWalk(start, goal, obstacles, fuel);
    if trail != [] {
      WalkCoversAtMostItsLength(trail, 0, |trail| - 1);
    }
  }

  /** A goal that is blocked or off the grid, other than the start itself, is
      never pushed, so the search returns the empty list. */
  lemma SearchBlockedGoal(start: Cell, goal: Cell, obstacles: set<Cell>, fuel: nat)
    requires start != goal && !Passable(goal, obstacles)
    ensures Search(start, goal, obstacles, fuel) == []
  {
    var trail := Loop(goal, obstacles, [StartEntry(start)], {}, fuel);
    SearchFindsShortestWalk(start, goal, obstacles, fuel);
  }

  /** The cell before the goal on a walk is the start or a passable neighbour
      of the goal. */
  lemma TrailEndsBesideGoal(trail: seq<Cell>, start: Cell, goal: Cell, obstacles: set<Cell>)
    requires start != goal
    requires trail != [] ==> WalkTo(trail, start, goal, obstacles)
    ensures trail != [] ==> Adjacent(start, goal) || exists n :: Adjacent(n, goal) && Passable(n, obstacles)
  {
    if trail != [] {
      var k := |trail| - 1;
      assert trail[0] == start && trail[k] == goal;
      assert Adjacent(trail[k - 1], trail[k]);
      if k - 1 > 0 {
        assert Passable(trail[k - 1], obstacles);
      }
    }
  }

  /** A goal whose four neighbours are all blocked or off the grid is reached
      only from a start next to it: the cell before the goal on a found walk is
      a neighbour of the goal, and only the start is exempt from the
      passability check. */
  lemma SearchEnclosedGoal(start: Cell, goal: Cell, obstacles: set<Cell>, fuel: nat)
    requires start != goal && !Adjacent(start, goal)
    requires forall n :: Adjacent(n, goal) ==> !Passable(n, obstacles)
    ensures Search(start, goal, obstacles, fuel) == []
  {
    SearchFindsShortestWalk(start, goal, obstacles, fuel);
    TrailEndsBesideGoal(Loop(goal, obstacles, [StartEntry(start)], {}, fuel), start, goal, obstacles);
  }

  /** Expanding the start next to a passable goal: the entry popped next is the
      goal's, carrying the trail from the start straight to it, since the goal
      gets priority 1 and every other child a greater one. */
  lemma FirstExpansionPopsGoal(start: Cell, goal: Cell, obstacles: set<Cell>)
    requires Adjacent(start, goal) && Passable(goal, obstacles)
    ensures var children := Expand(StartEntry(start), goal, obstacles, {start}, Moves);
            && |children| > 0
            && children[MinIndex(children)].cell == goal
            && children[MinIndex(children)].trail == [start, goal]
  {
    var s := StartEntry(start);
    var children := Expand(s, goal, obstacles, {start}, Moves);
    MovesAreCardinalSteps(start, goal);
    var move :| move in Moves && goal == Neighbour(start, move);
    ExpandComplete(s, goal, obstacles, {start}, Moves, move);
    var j :| 0 <= j < |children| && children[j].cell == goal;
    ExpandSound(s, goal, obstacles, {start}, Moves, j);
    var m := MinIndex(children);
    ExpandSound(s, goal, obstacles, {start}, Moves, m);
    assert children[m].f <= children[j].f == 1;
  }

  /** A passable goal next to the start is reached on the second pop. */
  lemma AdjacentGoalTrail(start: Cell, goal: Cell, obstacles: set<Cell>)
    requires Adjacent(start, goal) && Passable(goal, obstacles)
    ensures Loop(goal, obstacles, [StartEntry(start)], {}, 2) == [start, goal]
  {
    var s := StartEntry(start);
    var children := Expand(s, goal, obstacles, {start}, Moves);
    FirstExpansionPopsGoal(start, goal, obstacles);
    assert MinIndex([s]) == 0;
    assert [s][0] == s && {} + {start} == {start};
    assert RemoveAt([s], 0) + children == children;
    LoopContinues(goal, obstacles, [s], {}, 2);
    assert Loop(goal, obstacles, [s], {}, 2) == Loop(goal, obstacles, children, {start}, 1);
  }

  /** The route to a passable goal next to the start is the two centres. */
  lemma SearchAdjacentGoal(start: Cell, goal: Cell, obstacles: set<Cell>)
    requires Adjacent(start, goal) && Passable(goal, obstacles)
    ensures Search(start, goal, obstacles, 2) == [Center(start), Center(goal)]
  {
    AdjacentGoalTrail(start, goal, obstacles);
    var route := Search(start, goal, obstacles, 2);
    assert route == Centers([start, goal]);
    assert |route| == 2 && route[0] == Center(start) && route[1] == Center(goal);
  }

  /** A search from a cell to itself returns that cell's centre alone, even
      when the cell is blocked or on the border. */
  lemma SearchSameCell(s: Cell, obstacles: set<Cell>, fuel: nat)
    requires fuel >= 1
    ensures Search(s, s, obstacles, fuel) == [Center(s)]
  {
    assert MinIndex([StartEntry(s)]) == 0;
  }

  /** The budget only cuts the search short: a route found within some budget
      is the route found within any larger one. */
  lemma {:induction false} LoopFuelMonotone(goal: Cell, obstacles: set<Cell>, open: seq<Entry>,
                                            closed: set<Cell>, fuel: nat, more: nat)
    requires fuel <= more && Loop(goal, obstacles, open, closed, fuel) != []
    ensures Loop(goal, obstacles, open, closed, more) == Loop(goal, obstacles, open, closed, fuel)
    decreases fuel
  {
    var m := MinIndex(open);
    var p := open[m];
    if p.cell != goal {
      var closed' := closed + {p.cell};
      var open' := RemoveAt(open, m) + Expand(p, goal, obstacles, closed', Moves);
      LoopContinues(goal, obstacles, open, closed, fuel);
      LoopContinues(goal, obstacles, open, closed, more);
      LoopFuelMonotone(goal, obstacles, open', closed', fuel - 1, more - 1);
    }
  }

  lemma SearchFuelMonotone(start: Cell, goal: Cell, obstacles: set<Cell>, fuel: nat, more: nat)
    requires fuel <= more && Search(start, goal, obstacles, fuel) != []
    ensures Search(start, goal, obstacles, more) == Search(start, goal, obstacles, fuel)
  {
    LoopFuelMonotone(goal, obstacles, [StartEntry(start)], {}, fuel, more);
  }

  /** The cells of the bounding box of `a` and `b`. */
  predicate InBox(c: Cell, a: Cell, b: Cell)
  {
    Min(a.0, b.0) <= c.0 <= Max(a.0, b.0) && Min(a.1, b.1) <= c.1 <= Max(a.1, b.1)
  }

  /** One cardinal step from `c` towards `goal`, along the columns first. */
  function StepToward(c: Cell, goal: Cell): (n: Cell)
    requires c != goal
    ensures Adjacent(c, n) && Manhattan(n, goal) == Manhattan(c, goal) - 1
  {
    if c.0 < goal.0 then (c.0 + 1, c.1)
    else if c.0 > goal.0 then (c.0 - 1, c.1)
    else if c.1 < goal.1 then (c.0, c.1 + 1)
    else (c.0, c.1 - 1)
  }

  /** A staircase walk from `c` to `goal` that never leaves their bounding box. */
  ghost function Staircase(c: Cell, goal: Cell): seq<Cell>
    decreases Manhattan(c, goal)
  {
    if c == goal then [c] else [c] + Staircase(StepToward(c, goal), goal)
  }

  lemma {:induction false} StaircaseFacts(c: Cell, goal: Cell)
    ensures var w := Staircase(c, goal);
            && |w| == Manhattan(c, goal) + 1
            && w[0] == c && w[|w| - 1] == goal
            && (forall i :: 0 <= i < |w| - 1 ==> Adjacent(w[i], w[i + 1]))
            && (forall i :: 0 <= i < |w| ==> InBox(w[i], c, goal))
            && (forall i :: 0 <= i < |w| ==> Manhattan(w[i], goal) == Manhattan(c, goal) - i)
    decreases Manhattan(c, goal)
  {
    if c != goal {
      var n := StepToward(c, goal);
      StaircaseFacts(n, goal);
      var w := Staircase(c, goal);
      var rest := Staircase(n, goal);
      assert w == [c] + rest;
      forall i | 0 <= i < |w| - 1
        ensures Adjacent(w[i], w[i + 1])
      {
        if i > 0 {
          assert w[i] == rest[i - 1] && w[i + 1] == rest[i];
        }
      }
      forall i | 0 <= i < |w|
        ensures InBox(w[i], c, goal)
        ensures Manhattan(w[i], goal) == Manhattan(c, goal) - i
      {
        if i > 0 {
          assert w[i] == rest[i - 1];
          assert InBox(rest[i - 1], n, goal);
        }
      }
    }
  }

  /** A walk as long as the Manhattan distance plus one gets one cell closer to
      the goal with every step. */
  lemma TightWalkApproaches(w: seq<Cell>, start: Cell, goal: Cell, obstacles: set<Cell>, i: int)
    requires WalkTo(w, start, goal, obstacles) && |w| == Manhattan(start, goal) + 1
    requires 0 <= i < |w|
    ensures Manhattan(w[i], goal) == Manhattan(start, goal) - i
  {
    WalkCoversAtMostItsLength(w, i, |w| - 1);
    WalkCoversAtMostItsLength(w, 0, i);
    ManhattanTriangle(start, w[i], goal);
  }

  /** When nothing blocks the bounding box of the start and the goal, a route
      found has exactly Manhattan distance plus one waypoints, and each step
      brings it one cell closer to the goal. */
  lemma SearchOpenBox(start: Cell, goal: Cell, obstacles: set<Cell>, fuel: nat)
    requires InBounds(start) && InBounds(goal)
    requires forall c :: InBox(c, start, goal) && c != start ==> c !in obstacles
    ensures var route := Search(start, goal, obstacles, fuel);
            route != [] ==>
              && |route| == Manhattan(start, goal) + 1
              && forall i :: 0 <= i < |route| ==> Manhattan(CellOf(route[i]), goal) == Manhattan(start, goal) - i
  {
    var trail := Loop(goal, obstacles, [StartEntry(start)], {}, fuel);
    var route := Search(start, goal, obstacles, fuel);
    SearchFindsShortestWalk(start, goal, obstacles, fuel);
    SearchRouteIsShortest(start, goal, obstacles, fuel);
    StaircaseFacts(start, goal);
    var stairs := Staircase(start, goal);
    forall i | 1 <= i < |stairs|
      ensures Passable(stairs[i], obstacles)
    {
      assert InBox(stairs[i], start, goal);
      assert stairs[i] != start;
    }
    assert IsWalk(stairs, start, obstacles);
    if route != [] {
      assert |route| <= |stairs|;
      forall i | 0 <= i < |route|
        ensures Manhattan(CellOf(route[i]), goal) == Manhattan(start, goal) - i
      {
        TightWalkApproaches(trail, start, goal, obstacles, i);
      }
    }
  }
}

=== FILE: grid.dfy ===
/** The world geometry shared by the ground agent: screen size, the square cells
    the screen is cut into, cell centres, and the Manhattan distance the path
    search uses as its heuristic. */
module Grid {

  /** Screen size in pixels and the side of one grid cell. */
  const Width: int := 1000
  const Height: int := 800
  const GridSize: int := 20
  /** Number of cell columns and rows: the screen size divided by the cell
      side, rounded down (`GridDimensions` checks the values). */
  const GridWidth: int := 50
  const GridHeight: int := 40

  lemma GridDimensions()
    ensures GridWidth == Width / GridSize && GridHeight == Height / GridSize
  {
  }

  /** A grid cell (column, row) and a pixel position (x, y). */
  type Cell = (int, int)
  type Point = (int, int)

  datatype Option<+T> = None | Some(value: T)

  function Abs(n: int): nat
  {
    if n < 0 then -n else n
  }

  function Min(a: int, b: int): int
  {
    if a <= b then a else b
  }

  function Max(a: int, b: int): int
  {
    if a <= b then b else a
  }

  /** The cell holding a pixel position. The divisor is positive, so Dafny's
      Euclidean division agrees with the floor division `//` of farming.py. */
  function CellOf(p: Point): Cell
  {
    (p.0 / GridSize, p.1 / GridSize)
  }

  /** The pixel centre of a cell: the waypoints of a route are cell centres. */
  function Center(c: Cell): (p: Point)
    ensures CellOf(p) == c
    ensures p.0 % GridSize == GridSize / 2 && p.1 % GridSize == GridSize / 2
  {
    (c.0 * GridSize + GridSize / 2, c.1 * GridSize + GridSize / 2)
  }

  /** Two cells have the same centre only if they are the same cell. */
  lemma CenterInjective(a: Cell, b: Cell)
    requires Center(a) == Center(b)
    ensures a == b
  {
    assert CellOf(Center(a)) == a;
  }

  predicate InBounds(c: Cell)
  {
    0 <= c.0 < GridWidth && 0 <= c.1 < GridHeight
  }

  /** A cell a route may enter: on the grid and not blocked. */
  predicate Passable(c: Cell, obstacles: set<Cell>)
  {
    InBounds(c) && c !in obstacles
  }

  /** The heuristic of the search: the Manhattan (4-neighbour) distance. */
  function Manhattan(a: Cell, b: Cell): (d: nat)
    ensures d == 0 <==> a == b
  {
    Abs(a.0 - b.0) + Abs(a.1 - b.1)
  }

  lemma ManhattanSymmetric(a: Cell, b: Cell)
    ensures Manhattan(a, b) == Manhattan(b, a)
  {
  }

  /** The Manhattan distance never takes a detour into account: it is at most
      the sum of the distances through any intermediate cell. */
  lemma ManhattanTriangle(a: Cell, b: Cell, c: Cell)
    ensures Manhattan(a, c) <= Manhattan(a, b) + Manhattan(b, c)
  {
  }

  /** One cardinal step: the cells differ by exactly one along exactly one axis. */
  predicate Adjacent(a: Cell, b: Cell)
  {
    (a.0 == b.0 && Abs(a.1 - b.1) == 1) || (a.1 == b.1 && Abs(a.0 - b.0) == 1)
  }

  lemma AdjacentIsUnitDistance(a: Cell, b: Cell)
    ensures Adjacent(a, b) <==> Manhattan(a, b) == 1
  {
  }

  /** Two waypoints one step apart: exactly `GridSize` pixels along exactly one axis. */
  predicate StepApart(p: Point, q: Point)
  {
    (p.0 == q.0 && Abs(p.1 - q.1) == GridSize) || (p.1 == q.1 && Abs(p.0 - q.0) == GridSize)
  }

  lemma AdjacentCentersStepApart(a: Cell, b: Cell)
    requires Adjacent(a, b)
    ensures StepApart(Center(a), Center(b))
  {
  }

  /** A walk: a sequence of cells beginning at `start`, each one a cardinal step
      from the one before, and every cell after the first passable. The first
      cell itself is never checked, as the search pushes its start unchecked. */
  ghost predicate IsWalk(w: seq<Cell>, start: Cell, obstacles: set<Cell>)
  {
    && |w| >= 1
    && w[0] == start
    && (forall i :: 0 <= i < |w| - 1 ==> Adjacent(w[i], w[i + 1]))
    && (forall i :: 1 <= i < |w| ==> Passable(w[i], obstacles))
  }

  /** A walk from `start` that ends at `goal`. */
  ghost predicate WalkTo(w: seq<Cell>, start: Cell, goal: Cell, obstacles: set<Cell>)
  {
    IsWalk(w, start, obstacles) && w[|w| - 1] == goal
  }

  /** A walk to `goal` no longer than any other walk to it. */
  ghost predicate ShortestWalk(trail: seq<Cell>, start: Cell, goal: Cell, obstacles: set<Cell>)
  {
    && WalkTo(trail, start, goal, obstacles)
    && forall w :: WalkTo(w, start, goal, obstacles) ==> |trail| <= |w|
  }

  /** A walk of n steps covers a Manhattan distance of at most n, so the
      heuristic never overestimates the remaining cost (admissibility). */
  lemma {:induction false} WalkCoversAtMostItsLength(w: seq<Cell>, i: int, j: int)
    requires 0 <= i <= j < |w|
    requires forall k :: 0 <= k < |w| - 1 ==> Adjacent(w[k], w[k + 1])
    ensures Manhattan(w[i], w[j]) <= j - i
  {
    if i < j {
      WalkCoversAtMostItsLength(w, i, j - 1);
      ManhattanTriangle(w[i], w[j - 1], w[j]);
      AdjacentIsUnitDistance(w[j - 1], w[j]);
    }
  }

  /** The pixel position of a route through the given cells. */
  function Centers(cells: seq<Cell>): (route: seq<Point>)
    ensures |route| == |cells|
    ensures forall i :: 0 <= i < |cells| ==> route[i] == Center(cells[i])
    ensures forall i :: 0 <= i < |cells| ==> CellOf(route[i]) == cells[i]
    ensures forall i, j :: 0 <= i < |cells| && 0 <= j < |cells| && route[i] == route[j] ==> cells[i] == cells[j]
  {
    seq(|cells|, i requires 0 <= i < |cells| => Center(cells[i]))
  }
}

=== FILE: obstacles.dfy ===
/** The obstacle map the ground agent rebuilds at the start of every tick: the
    cell of every weed plus the whole outer border of the grid. */
module ObstacleMap {
  import opened Grid

  /** A weed, placed by the pixel position of its centre. */
  datatype Weed = Weed(x: int, y: int)
  {
    /** The weed's cell, fixed when the weed is created. */
    function Cell(): Cell
    {
      CellOf((x, y))
    }
  }

  /** The outer ring of the grid: column 0, the last column, row 0 and the last row. */
  predicate OnBorder(c: Cell)
  {
    || (0 <= c.0 < GridWidth && (c.1 == 0 || c.1 == GridHeight - 1))
    || (0 <= c.1 < GridHeight && (c.0 == 0 || c.0 == GridWidth - 1))
  }

  predicate HasWeedAt(weeds: seq<Weed>, c: Cell)
  {
    exists i :: 0 <= i < |weeds| && weeds[i].Cell() == c
  }

  /** Adds the cells of `weeds[k..]` to `acc`, one weed after the other. */
  function AddWeeds(acc: set<Cell>, weeds: seq<Weed>, k: nat): (r: set<Cell>)
    requires k <= |weeds|
    ensures forall c :: c in r <==> c in acc || exists i :: k <= i < |weeds| && weeds[i].Cell() == c
    decreases |weeds| - k
  {
    if k == |weeds| then acc
    else AddWeeds(acc + {weeds[k].Cell()}, weeds, k + 1)
  }

  /** Adds the top and bottom cells of the columns `x .. GridWidth - 1`. */
  function AddRows(acc: set<Cell>, x: int): (r: set<Cell>)
    requires 0 <= x <= GridWidth
    ensures forall c :: c in r <==> c in acc || (x <= c.0 < GridWidth && (c.1 == 0 || c.1 == GridHeight - 1))
    decreases GridWidth - x
  {
    if x == GridWidth then acc
    else AddRows(acc + {(x, 0), (x, GridHeight - 1)}, x + 1)
  }

  /** Adds the left and right cells of the rows `y .. GridHeight - 1`. */
  function AddColumns(acc: set<Cell>, y: int): (r: set<Cell>)
    requires 0 <= y <= GridHeight
    ensures forall c :: c in r <==> c in acc || (y <= c.1 < GridHeight && (c.0 == 0 || c.0 == GridWidth - 1))
    decreases GridHeight - y
  {
    if y == GridHeight then acc
    else AddColumns(acc + {(0, y), (GridWidth - 1, y)}, y + 1)
  }

  /** The obstacle set, built from empty: weeds first, then the border. A cell
      is blocked exactly when a weed stands on it or it lies on the border. */
  function UpdateObstacles(weeds: seq<Weed>): (obstacles: set<Cell>)
    ensures forall c :: c in obstacles <==> HasWeedAt(weeds, c) || OnBorder(c)
  {
    var obstacles := AddColumns(AddRows(AddWeeds({}, weeds, 0), 0), 0);
    assert forall c :: c in obstacles <==> HasWeedAt(weeds, c) || OnBorder(c) by {
      forall c
        ensures c in obstacles <==> HasWeedAt(weeds, c) || OnBorder(c)
      {
        BuiltObstacle(weeds, c);
      }
    }
    obstacles
  }

  /** The three loops together block a cell exactly when a weed stands on it or
      it lies on the border. */
  lemma BuiltObstacle(weeds: seq<Weed>, c: Cell)
    ensures c in AddColumns(AddRows(AddWeeds({}, weeds, 0), 0), 0) ==> HasWeedAt(weeds, c) || OnBorder(c)
    ensures HasWeedAt(weeds, c) ==> c in AddColumns(AddRows(AddWeeds({}, weeds, 0), 0), 0)
    ensures OnBorder(c) ==> c in AddColumns(AddRows(AddWeeds({}, weeds, 0), 0), 0)
  {
  }

  /** The border is always blocked, whatever the weeds: no route ever leaves the
      interior once it has entered it. */
  lemma BorderAlwaysBlocked(weeds: seq<Weed>, c: Cell)
    requires InBounds(c)
    requires c.0 == 0 || c.0 == GridWidth - 1 || c.1 == 0 || c.1 == GridHeight - 1
    ensures !Passable(c, UpdateObstacles(weeds))
  {
  }

  /** With no weeds, an interior cell is free and the passable cells are exactly
      the interior ones. */
  lemma NoWeedsInteriorFree(c: Cell)
    ensures Passable(c, UpdateObstacles([])) <==> 1 <= c.0 < GridWidth - 1 && 1 <= c.1 < GridHeight - 1
  {
    assert !HasWeedAt([], c);
    if 1 <= c.0 < GridWidth - 1 && 1 <= c.1 < GridHeight - 1 {
      assert !OnBorder(c);
    } else if InBounds(c) {
      assert OnBorder(c);
    }
  }
}

=== FILE: route.dfy ===
/** The search as the ground agent runs it: without a budget. The code's loop
    stops only when the goal is popped or the open list is empty; its result is
    the route that every large enough budget finds. */
module Planner {
  import opened Grid
  import opened AStar
  import opened AStarTheory

  /** The search without a budget: the route that a large enough budget finds,
      or the empty list when no budget finds one. Budgets that find a route all
      find the same one (`RouteAgreesWithBudget`). */
  ghost function Route(start: Cell, goal: Cell, obstacles: set<Cell>): seq<Point>
  {
    if exists fuel: nat :: Search(start, goal, obstacles, fuel) != [] then
      var fuel: nat :| Search(start, goal, obstacles, fuel) != [];
      Search(start, goal, obstacles, fuel)
    else
      []
  }

  /** Every budget that finds a route finds the one the search without a
      budget returns. */
  lemma RouteAgreesWithBudget(start: Cell, goal: Cell, obstacles: set<Cell>, fuel: nat)
    requires Search(start, goal, obstacles, fuel) != []
    ensures Route(start, goal, obstacles) == Search(start, goal, obstacles, fuel)
  {
    forall other: nat | Search(start, goal, obstacles, other) != []
      ensures Search(start, goal, obstacles, other) == Search(start, goal, obstacles, fuel)
    {
      if other <= fuel {
        SearchFuelMonotone(start, goal, obstacles, other, fuel);
      } else {
        SearchFuelMonotone(start, goal, obstacles, fuel, other);
      }
    }
  }

  /** A route of the search without a budget is found by some budget, so it
      has the shape of every found route and no walk to the goal is shorter. */
  lemma RouteIsShortest(start: Cell, goal: Cell, obstacles: set<Cell>)
    ensures var route := Route(start, goal, obstacles);
            route != [] ==>
              && route[0] == Center(start)
              && route[|route| - 1] == Center(goal)
              && (forall i :: 0 <= i < |route| - 1 ==> StepApart(route[i], route[i + 1]))
              && (forall i :: 1 <= i < |route| ==>
                    route[i] == Center(CellOf(route[i])) && Passable(CellOf(route[i]), obstacles))
              && Manhattan(start, goal) + 1 <= |route|
              && forall w :: WalkTo(w, start, goal, obstacles) ==> |route| <= |w|
  {
    if Route(start, goal, obstacles) != [] {
      var fuel: nat :| Search(start, goal, obstacles, fuel) != [];
      RouteAgreesWithBudget(start, goal, obstacles, fuel);
      SearchRouteShape(start, goal, obstacles, fuel);
      SearchRouteIsShortest(start, goal, obstacles, fuel);
    }
  }

  /** A goal that is blocked or off the grid, other than the start, has no route. */
  lemma RouteBlockedGoal(start: Cell, goal: Cell, obstacles: set<Cell>)
    requires start != goal && !Passable(goal, obstacles)
    ensures Route(start, goal, obstacles) == []
  {
    forall fuel: nat
      ensures Search(start, goal, obstacles, fuel) == []
    {
      SearchBlockedGoal(start, goal, obstacles, fuel);
    }
  }

  /** A goal whose neighbours are all blocked or off the grid has no route,
      unless the start is the goal or next to it. */
  lemma RouteEnclosedGoal(start: Cell, goal: Cell, obstacles: set<Cell>)
    requires start != goal && !Adjacent(start, goal)
    requires forall n :: Adjacent(n, goal) ==> !Passable(n, obstacles)
    ensures Route(start, goal, obstacles) == []
  {
    forall fuel: nat
      ensures Search(start, goal, obstacles, fuel) == []
    {
      SearchEnclosedGoal(start, goal, obstacles, fuel);
    }
  }

  /** The route to a passable goal next to the start is the two centres,
      whether or not the start itself is blocked. */
  lemma RouteAdjacentGoal(start: Cell, goal: Cell, obstacles: set<Cell>)
    requires Adjacent(start, goal) && Passable(goal, obstacles)
    ensures Route(start, goal, obstacles) == [Center(start), Center(goal)]
  {
    SearchAdjacentGoal(start, goal, obstacles);
    RouteAgreesWithBudget(start, goal, obstacles, 2);
  }

  /** The route from a cell to itself is that cell's centre alone. */
  lemma RouteSameCell(s: Cell, obstacles: set<Cell>)
    ensures Route(s, s, obstacles) == [Center(s)]
  {
    SearchSameCell(s, obstacles, 1);
    RouteAgreesWithBudget(s, s, obstacles, 1);
  }
}

=== FILE: scenario.dfy ===
/** A worked case of the search on a field without weeds, where only the
    border blocks: a route between two interior cells is as short as the grid
    allows. */
module OpenField {
  import opened Grid
  import opened ObstacleMap
  import opened AStar
  import opened AStarTheory
  import opened Planner

  /** With no weeds, the bounding box of two interior cells is free. */
  lemma InteriorBoxFree(start: Cell, goal: Cell)
    requires 1 <= start.0 < GridWidth - 1 && 1 <= start.1 < GridHeight - 1
    requires 1 <= goal.0 < GridWidth - 1 && 1 <= goal.1 < GridHeight - 1
    ensures forall c :: InBox(c, start, goal) ==> c !in UpdateObstacles([])
  {
    forall c | InBox(c, start, goal)
      ensures c !in UpdateObstacles([])
    {
      NoWeedsInteriorFree(c);
    }
  }

  /** With no weeds, any two interior cells are joined, if at all, by a route
      of Manhattan distance plus one waypoints that approaches the goal with
      every step. */
  lemma InteriorRouteIsManhattan(start: Cell, goal: Cell, fuel: nat)
    requires 1 <= start.0 < GridWidth - 1 && 1 <= start.1 < GridHeight - 1
    requires 1 <= goal.0 < GridWidth - 1 && 1 <= goal.1 < GridHeight - 1
    ensures var route := Search(start, goal, UpdateObstacles([]), fuel);
            route != [] ==>
              && |route| == Manhattan(start, goal) + 1
              && route[0] == Center(start) && route[|route| - 1] == Center(goal)
              && forall i :: 0 <= i < |route| ==> Manhattan(CellOf(route[i]), goal) == Manhattan(start, goal) - i
  {
    var obstacles := UpdateObstacles([]);
    InteriorBoxFree(start, goal);
    SearchOpenBox(start, goal, obstacles, fuel);
    SearchRouteShape(start, goal, obstacles, fuel);
  }

  /** From cell (1, 1) to cell (8, 6) on an empty field a route has 13
      waypoints, from pixel (30, 30) to pixel (170, 130). */
  lemma CornerToInteriorRoute(fuel: nat)
    ensures var route := Search((1, 1), (8, 6), UpdateObstacles([]), fuel);
            route != [] ==> |route| == 13 && route[0] == (30, 30) && route[12] == (170, 130)
  {
    InteriorRouteIsManhattan((1, 1), (8, 6), fuel);
  }

  /** A crop planted in column 0 or row 0 sits on the blocked border: unless the
      agent is already in its cell, the search returns no route and the agent
      heads straight for the crop. */
  lemma BorderCropHasNoRoute(start: Cell, crop: Point, weeds: seq<Weed>)
    requires 0 <= crop.0 < Width && 0 <= crop.1 < Height
    requires crop.0 < GridSize || crop.1 < GridSize
    requires start != CellOf(crop)
    ensures Route(start, CellOf(crop), UpdateObstacles(weeds)) == []
  {
    BorderAlwaysBlocked(weeds, CellOf(crop));
    RouteBlockedGoal(start, CellOf(crop), UpdateObstacles(weeds));
  }

  /** The search does find routes: with no weeds, the route from cell (1, 1)
      to its right-hand neighbour is the two centres. */
  lemma NeighbourRoute()
    ensures Route((1, 1), (2, 1), UpdateObstacles([])) == [(30, 30), (50, 30)]
  {
    NoWeedsInteriorFree((2, 1));
    RouteAdjacentGoal((1, 1), (2, 1), UpdateObstacles([]));
  }

  /** Cell (2, 1) walled in on all four sides, with the wall including the
      cell (1, 1) to its left. */
  const WalledIn: set<Cell> := {(1, 1), (1, 0), (0, 1), (1, 2), (2, 0), (2, 2), (3, 1)}

  /** The start is never checked for passability, so an agent standing on a
      blocked cell next to an enclosed goal still gets a route into it. */
  lemma BlockedStartReachesEnclosedGoal()
    ensures (1, 1) in WalledIn
    ensures forall n :: Adjacent(n, (2, 1)) ==> !Passable(n, WalledIn)
    ensures Route((1, 1), (2, 1), WalledIn) == [(30, 30), (50, 30)]
  {
    RouteAdjacentGoal((1, 1), (2, 1), WalledIn);
  }
}

=== FILE: selection.dfy ===
/** The ground agent's choice of the next crop to harvest: the one nearest to
    the agent's position by squared Euclidean distance, the earliest in the
    list on a tie. */
module TargetSelection {
  import opened Grid

  /** A crop, identified by `id`, planted at the pixel position (x, y). */
  datatype Crop = Crop(id: nat, x: int, y: int)
  {
    function Cell(): Cell
    {
      CellOf((x, y))
    }
  }

  function SquaredDistance(p: Point, q: Point): int
  {
    (p.0 - q.0) * (p.0 - q.0) + (p.1 - q.1) * (p.1 - q.1)
  }

  function CropDistance(c: Crop, pos: Point): int
  {
    SquaredDistance((c.x, c.y), pos)
  }

  /** Index `k` holds a crop at minimal distance from `pos`, and every crop
      before it is strictly farther away. */
  ghost predicate IsFirstNearest(targets: seq<Crop>, pos: Point, k: int)
  {
    && 0 <= k < |targets|
    && (forall j :: 0 <= j < |targets| ==> CropDistance(targets[k], pos) <= CropDistance(targets[j], pos))
    && (forall j :: 0 <= j < k ==> CropDistance(targets[j], pos) > CropDistance(targets[k], pos))
  }

  /** At most one index is the first nearest: the choice is determined by the
      list and the position. */
  lemma FirstNearestUnique(targets: seq<Crop>, pos: Point, k1: int, k2: int)
    requires IsFirstNearest(targets, pos, k1) && IsFirstNearest(targets, pos, k2)
    ensures k1 == k2
  {
    var d1, d2 := CropDistance(targets[k1], pos), CropDistance(targets[k2], pos);
    assert d1 <= d2 && d2 <= d1;
  }

  /** The state of the scan after its first `n` crops: the index of the nearest
      crop so far, or `None` while the best distance is still infinite. A crop
      replaces the best one only when strictly nearer. */
  function Scan(targets: seq<Crop>, pos: Point, n: nat): (best: Option<nat>)
    requires n <= |targets|
    ensures best.None? <==> n == 0
    ensures best.Some? ==> IsFirstNearest(targets[..n], pos, best.value)
  {
    if n == 0 then None
    else
      match Scan(targets, pos, n - 1)
      case None => Some(n - 1)
      case Some(b) =>
        if CropDistance(targets[n - 1], pos) < CropDistance(targets[b], pos) then Some(n - 1) else Some(b)
  }

  /** The nearest crop to `pos` among `targets`, or `None` for an empty list. */
  function FindNearestCrop(targets: seq<Crop>, pos: Point): (r: Option<Crop>)
    ensures r.None? <==> |targets| == 0
    ensures r.Some? ==> exists k :: IsFirstNearest(targets, pos, k) && r.value == targets[k]
  {
    if |targets| == 0 then None
    else
      var best := Scan(targets, pos, |targets|);
      assert targets[..|targets|] == targets;
      Some(targets[best.value])
  }
}

=== FILE: tractor.dfy ===
/** The ground agent's control loop. Each tick rebuilds the obstacle map; while
    harvesting with crops left to harvest, the agent picks the nearest crop when
    it holds none and plans a route to it, then follows the route (or, with no
    route, heads straight for the crop); on arrival the crop is consumed. Every
    tick ends by clamping the agent to the screen.

    The floating-point motion towards a waypoint or crop, and the random idle
    jitter, are not modelled: `step` is the displacement they produce in a tick. */
module GroundAgent {
  import opened Grid
  import opened ObstacleMap
  import opened Planner
  import opened TargetSelection

  /** The agent's footprint in pixels. */
  const TractorWidth: int := 40
  const TractorHeight: int := 20

  /** Arrival tests on squared distances: within 5 pixels of a waypoint, within
      10 pixels of a crop approached directly. */
  const WaypointRadiusSquared: int := 25
  const DirectRadiusSquared: int := 100

  /** The task label: harvesting, or anything else (the agent then idles). */
  datatype Task = Idle | Harvest

  /** The agent: the top-left corner of its footprint, its task, the crops it
      was asked to harvest, the waypoints still to visit, and the crop it is
      heading for. */
  datatype Tractor = Tractor(x: int, y: int, task: Task, targetCrops: seq<Crop>,
                             path: seq<Point>, currentTarget: Option<Crop>)

  /** The agent together with the world's list of crops. */
  datatype World = World(tractor: Tractor, crops: seq<Crop>)

  type Offset = (int, int)

  predicate NoDuplicates<T(==)>(s: seq<T>)
  {
    forall i, j :: 0 <= i < j < |s| ==> s[i] != s[j]
  }

  /** `s` without the first occurrence of `x`, the other elements keeping their
      order; `s` itself when `x` is absent. */
  function RemoveFirst<T(==)>(s: seq<T>, x: T): (r: seq<T>)
    ensures x in s ==> |r| == |s| - 1 && multiset(r) == multiset(s) - multiset{x}
    ensures x !in s ==> r == s
  {
    if |s| == 0 then s
    else if s[0] == x then
      assert s == [s[0]] + s[1..];
      s[1..]
    else
      assert s == [s[0]] + s[1..];
      [s[0]] + RemoveFirst(s[1..], x)
  }

  /** Removal is `list.remove`: the element goes at its first occurrence `i`,
      and the elements before and after it keep their order. */
  lemma {:induction false} RemoveFirstSplits(s: seq<Crop>, x: Crop, i: int)
    requires 0 <= i < |s| && s[i] == x && x !in s[..i]
    ensures RemoveFirst(s, x) == s[..i] + s[i + 1..]
  {
    var tail := s[1..];
    if i == 0 {
      assert s[..0] + tail == tail;
    } else {
      assert s[0] != x && tail[i - 1] == x && x !in tail[..i - 1] by {
        assert s[..i] == [s[0]] + tail[..i - 1];
      }
      RemoveFirstSplits(tail, x, i - 1);
      calc {
        RemoveFirst(s, x);
        [s[0]] + RemoveFirst(tail, x);
        [s[0]] + (tail[..i - 1] + tail[i..]);
        { assert s[..i] == [s[0]] + tail[..i - 1] && s[i + 1..] == tail[i..]; }
        s[..i] + s[i + 1..];
      }
    }
  }

  /** In a list without duplicates, removing an element removes it entirely,
      leaves every other element in place, and keeps the list free of
      duplicates. */
  lemma {:induction false} RemoveFirstDistinct<T>(s: seq<T>, x: T)
    requires NoDuplicates(s)
    ensures forall y :: y in RemoveFirst(s, x) <==> y in s && y != x
    ensures NoDuplicates(RemoveFirst(s, x))
  {
    if |s| > 0 {
      var tail := s[1..];
      assert NoDuplicates(tail) by {
        forall i, j | 0 <= i < j < |tail|
          ensures tail[i] != tail[j]
        {
          assert tail[i] == s[i + 1] && tail[j] == s[j + 1];
        }
      }
      assert s[0] !in tail by {
        forall i | 0 <= i < |tail|
          ensures tail[i] != s[0]
        {
          assert tail[i] == s[i + 1];
        }
      }
      assert s == [s[0]] + tail;
      if s[0] != x {
        RemoveFirstDistinct(tail, x);
        var r := RemoveFirst(s, x);
        var rest := RemoveFirst(tail, x);
        assert r == [s[0]] + rest;
        forall i, j | 0 <= i < j < |r|
          ensures r[i] != r[j]
        {
          if i == 0 {
            assert r[j] == rest[j - 1] && r[j] in rest;
          } else {
            assert r[i] == rest[i - 1] && r[j] == rest[j - 1];
          }
        }
      }
    }
  }

  /** The crop the agent holds is in its own list whenever it is still in the
      world's list; otherwise removing it from the agent's list would fail. */
  predicate TargetTracked(w: World)
  {
    w.tractor.currentTarget.Some? && w.tractor.currentTarget.value in w.crops ==>
      w.tractor.currentTarget.value in w.tractor.targetCrops
  }

  /** Arrival at the held crop: a crop still in the world is removed from the
      world's list and from the agent's list; the agent then holds no crop. */
  function Consume(w: World): (w': World)
    requires TargetTracked(w)
    ensures w'.tractor.currentTarget.None?
    ensures w'.tractor == w.tractor.(targetCrops := w'.tractor.targetCrops, currentTarget := None)
    ensures w.tractor.currentTarget.Some? ==>
              var c := w.tractor.currentTarget.value;
              && multiset(w'.crops) == multiset(w.crops) - multiset{c}
              && (c in w.crops ==> multiset(w'.tractor.targetCrops) == multiset(w.tractor.targetCrops) - multiset{c})
              && (c in w.crops ==> w'.crops == RemoveFirst(w.crops, c)
                                   && w'.tractor.targetCrops == RemoveFirst(w.tractor.targetCrops, c))
              && (c !in w.crops ==> w'.crops == w.crops && w'.tractor.targetCrops == w.tractor.targetCrops)
    ensures w.tractor.currentTarget.None? ==> w'.crops == w.crops && w'.tractor == w.tractor
  {
    var t := w.tractor;
    if t.currentTarget.Some? && t.currentTarget.value in w.crops then
      var c := t.currentTarget.value;
      World(t.(targetCrops := RemoveFirst(t.targetCrops, c), currentTarget := None), RemoveFirst(w.crops, c))
    else
      World(t.(currentTarget := None), w.crops)
  }

  /** One tick of route following. Within 5 pixels of the first waypoint, that
      waypoint is dropped, and dropping the last one is arrival at the crop;
      farther away, the agent moves by `step`. */
  function FollowPath(w: World, step: Offset): (w': World)
    requires TargetTracked(w)
    ensures TargetTracked(w')
  {
    var t := w.tractor;
    if |t.path| == 0 then w
    else if SquaredDistance(t.path[0], (t.x, t.y)) < WaypointRadiusSquared then
      var w1 := World(t.(path := t.path[1..]), w.crops);
      if |w1.tractor.path| == 0 then Consume(w1) else w1
    else
      World(t.(x := t.x + step.0, y := t.y + step.1), w.crops)
  }

  /** One tick of direct approach: within 10 pixels of the held crop the agent
      has arrived; farther away it moves by `step`. */
  function MoveDirectly(w: World, step: Offset): (w': World)
    requires TargetTracked(w)
    ensures TargetTracked(w')
  {
    var t := w.tractor;
    if t.currentTarget.None? then w
    else
      var c := t.currentTarget.value;
      if SquaredDistance((c.x, c.y), (t.x, t.y)) < DirectRadiusSquared then Consume(w)
      else World(t.(x := t.x + step.0, y := t.y + step.1), w.crops)
  }

  /** Picks the nearest crop and plans a route from the agent's cell to the
      crop's cell, with the search run to completion. */
  ghost function Acquire(t: Tractor, obstacles: set<Cell>): (t': Tractor)
    ensures |t.targetCrops| == 0 ==> t' == t.(currentTarget := None)
    ensures |t.targetCrops| > 0 ==>
              exists k :: && IsFirstNearest(t.targetCrops, (t.x, t.y), k)
                          && t' == t.(currentTarget := Some(t.targetCrops[k]),
                                      path := Route(CellOf((t.x, t.y)), t.targetCrops[k].Cell(), obstacles))
  {
    var target := FindNearestCrop(t.targetCrops, (t.x, t.y));
    if target.Some? then
      t.(currentTarget := target,
         path := Route(CellOf((t.x, t.y)), target.value.Cell(), obstacles))
    else
      t.(currentTarget := target)
  }

  /** The route planned to a picked crop runs from the centre of the agent's
      cell to the centre of the crop's cell, and no walk between the two cells
      is shorter. */
  lemma AcquirePlansShortestRoute(t: Tractor, obstacles: set<Cell>)
    requires |t.targetCrops| > 0
    ensures var t' := Acquire(t, obstacles);
            && t'.currentTarget.Some?
            && var goal := t'.currentTarget.value.Cell();
               var start := CellOf((t.x, t.y));
               t'.path != [] ==>
                 && t'.path[0] == Center(start)
                 && t'.path[|t'.path| - 1] == Center(goal)
                 && forall w :: WalkTo(w, start, goal, obstacles) ==> |t'.path| <= |w|
  {
    var target := FindNearestCrop(t.targetCrops, (t.x, t.y));
    var t' := Acquire(t, obstacles);
    assert t'.currentTarget == target && t'.path == Route(CellOf((t.x, t.y)), target.value.Cell(), obstacles);
    RouteIsShortest(CellOf((t.x, t.y)), target.value.Cell(), obstacles);
  }

  /** Keeps the agent's footprint on the screen. */
  function Clamp(t: Tractor): (t': Tractor)
    ensures 0 <= t'.x <= Width - TractorWidth && 0 <= t'.y <= Height - TractorHeight
    ensures t' == t.(x := t'.x, y := t'.y)
    ensures 0 <= t.x <= Width - TractorWidth && 0 <= t.y <= Height - TractorHeight ==> t' == t
    ensures t.x < 0 ==> t'.x == 0
    ensures t.x > Width - TractorWidth ==> t'.x == Width - TractorWidth
    ensures t.y < 0 ==> t'.y == 0
    ensures t.y > Height - TractorHeight ==> t'.y == Height - TractorHeight
  {
    t.(x := Max(0, Min(Width - TractorWidth, t.x)), y := Max(0, Min(Height - TractorHeight, t.y)))
  }

  /** The harvesting branch of a tick, before the clamp. */
  ghost function HarvestStep(w: World, obstacles: set<Cell>, step: Offset): (w': World)
    requires TargetTracked(w)
    ensures TargetTracked(w')
  {
    var t := w.tractor;
    var t1 := if t.currentTarget.None? then Acquire(t, obstacles) else t;
    var w1 := World(t1, w.crops);
    if t1.currentTarget.Some? && |t1.path| > 0 then FollowPath(w1, step)
    else if t1.currentTarget.Some? then MoveDirectly(w1, step)
    else w1
  }

  /** A harvesting tick happens when the task is harvesting and crops remain
      in the agent's list. */
  predicate Harvesting(t: Tractor)
  {
    t.task == Harvest && |t.targetCrops| > 0
  }

  /** One tick of the agent. */
  ghost function Update(w: World, weeds: seq<Weed>, step: Offset): (w': World)
    requires TargetTracked(w)
    ensures 0 <= w'.tractor.x <= Width - TractorWidth && 0 <= w'.tractor.y <= Height - TractorHeight
    ensures TargetTracked(w')
  {
    var obstacles := UpdateObstacles(weeds);
    var t := w.tractor;
    var moved :=
      if Harvesting(t) then HarvestStep(w, obstacles, step)
      else World(t.(x := t.x + step.0, y := t.y + step.1), w.crops);
    World(Clamp(moved.tractor), moved.crops)
  }

  /** The crops whose growth has matured them, in list order. */
  function MaturedCrops(crops: seq<Crop>, matured: Crop -> bool): (r: seq<Crop>)
    ensures forall c :: c in r <==> c in crops && matured(c)
    ensures |r| <= |crops|
    ensures (forall i :: 0 <= i < |crops| ==> matured(crops[i])) ==> r == crops
  {
    if |crops| == 0 then []
    else (if matured(crops[0]) then [crops[0]] else []) + MaturedCrops(crops[1..], matured)
  }

  /** Filtering keeps the world's order: the matured crops of two lists joined
      are the matured crops of the first followed by those of the second. */
  lemma {:induction false} MaturedCropsAppend(a: seq<Crop>, b: seq<Crop>, matured: Crop -> bool)
    ensures MaturedCrops(a + b, matured) == MaturedCrops(a, matured) + MaturedCrops(b, matured)
  {
    if |a| == 0 {
      assert a + b == b;
    } else {
      assert (a + b)[0] == a[0] && (a + b)[1..] == a[1..] + b;
      MaturedCropsAppend(a[1..], b, matured);
    }
  }

  /** The harvest command: the agent takes up harvesting with every matured
      crop as its list. The crop it already holds is kept. */
  function StartHarvest(w: World, matured: Crop -> bool): (w': World)
    ensures w'.tractor.task == Harvest
    ensures forall c :: c in w'.tractor.targetCrops <==> c in w.crops && matured(c)
    ensures w'.tractor.targetCrops == MaturedCrops(w.crops, matured)
    ensures w'.crops == w.crops && w'.tractor == w.tractor.(task := Harvest, targetCrops := w'.tractor.targetCrops)
  {
    World(w.tractor.(task := Harvest, targetCrops := MaturedCrops(w.crops, matured)), w.crops)
  }

  /** Removing the consumed crop from lists without duplicates leaves exactly
      the other crops. */
  ghost predicate ConsumedFrom(before: seq<Crop>, after: seq<Crop>, c: Crop)
  {
    forall y :: y in after <==> y in before && y != c
  }

  /** The effect of consuming crop `c` on the agent's crop and route and on the
      two crop lists. */
  ghost predicate ConsumedAt(w: World, w': World, c: Crop)
  {
    && w'.tractor.currentTarget.None?
    && w'.tractor.path == []
    && multiset(w'.crops) == multiset(w.crops) - multiset{c}
    && w'.crops == RemoveFirst(w.crops, c)
    && (c in w.crops ==> multiset(w'.tractor.targetCrops) == multiset(w.tractor.targetCrops) - multiset{c})
    && (c in w.crops ==> w'.tractor.targetCrops == RemoveFirst(w.tractor.targetCrops, c))
    && (c !in w.crops ==> w'.tractor.targetCrops == w.tractor.targetCrops)
    && (NoDuplicates(w.crops) ==> ConsumedFrom(w.crops, w'.crops, c))
    && (NoDuplicates(w.tractor.targetCrops) && c in w.crops ==>
          ConsumedFrom(w.tractor.targetCrops, w'.tractor.targetCrops, c))
  }

  /** A harvesting tick is the harvesting branch followed by the clamp, which
      moves nothing but the position. */
  lemma UpdateHarvesting(w: World, weeds: seq<Weed>, step: Offset)
    requires TargetTracked(w) && Harvesting(w.tractor)
    ensures var m := HarvestStep(w, UpdateObstacles(weeds), step);
            var w' := Update(w, weeds, step);
            && w'.crops == m.crops
            && w'.tractor == m.tractor.(x := w'.tractor.x, y := w'.tractor.y)
  {
  }

  /** Consuming crop `c` from a world whose route is already empty. */
  lemma ConsumeEffect(w: World, c: Crop)
    requires TargetTracked(w) && w.tractor.currentTarget == Some(c) && w.tractor.path == []
    ensures ConsumedAt(w, Consume(w), c)
  {
    if NoDuplicates(w.crops) {
      RemoveFirstDistinct(w.crops, c);
    }
    if NoDuplicates(w.tractor.targetCrops) {
      RemoveFirstDistinct(w.tractor.targetCrops, c);
    }
  }

  /** Reaching the last waypoint consumes the held crop: a crop still in the
      world leaves both the world's list and the agent's list, a crop already
      gone leaves both lists as they were, and the agent holds no crop and no
      route afterwards. */
  lemma UpdateConsumesAtLastWaypoint(w: World, weeds: seq<Weed>, step: Offset)
    requires TargetTracked(w) && Harvesting(w.tractor) && w.tractor.currentTarget.Some?
    requires |w.tractor.path| == 1
    requires SquaredDistance(w.tractor.path[0], (w.tractor.x, w.tractor.y)) < WaypointRadiusSquared
    ensures ConsumedAt(w, Update(w, weeds, step), w.tractor.currentTarget.value)
  {
    var t := w.tractor;
    var w1 := World(t.(path := []), w.crops);
    assert t.path[1..] == [];
    assert FollowPath(w, step) == Consume(w1);
    assert HarvestStep(w, UpdateObstacles(weeds), step) == Consume(w1);
    ConsumeEffect(w1, t.currentTarget.value);
    UpdateHarvesting(w, weeds, step);
  }

  /** Reaching a waypoint that is not the last drops just that waypoint and
      changes nothing else but the clamp. */
  lemma UpdateDropsReachedWaypoint(w: World, weeds: seq<Weed>, step: Offset)
    requires TargetTracked(w) && Harvesting(w.tractor) && w.tractor.currentTarget.Some?
    requires |w.tractor.path| >= 2
    requires SquaredDistance(w.tractor.path[0], (w.tractor.x, w.tractor.y)) < WaypointRadiusSquared
    ensures var w' := Update(w, weeds, step);
            && w'.tractor == Clamp(w.tractor.(path := w.tractor.path[1..]))
            && w'.crops == w.crops
  {
    assert HarvestStep(w, UpdateObstacles(weeds), step) == FollowPath(w, step);
  }

  /** Arriving within 10 pixels of the held crop with no route consumes it,
      exactly as reaching the last waypoint does. */
  lemma UpdateConsumesOnDirectArrival(w: World, weeds: seq<Weed>, step: Offset)
    requires TargetTracked(w) && Harvesting(w.tractor) && w.tractor.currentTarget.Some?
    requires |w.tractor.path| == 0
    requires var c := w.tractor.currentTarget.value;
             SquaredDistance((c.x, c.y), (w.tractor.x, w.tractor.y)) < DirectRadiusSquared
    ensures ConsumedAt(w, Update(w, weeds, step), w.tractor.currentTarget.value)
  {
    assert MoveDirectly(w, step) == Consume(w);
    assert HarvestStep(w, UpdateObstacles(weeds), step) == Consume(w);
    ConsumeEffect(w, w.tractor.currentTarget.value);
    UpdateHarvesting(w, weeds, step);
  }

  /** While a crop is held, the harvesting branch keeps the route or drops its
      first waypoint. */
  lemma HeldStepKeepsRoute(w: World, obstacles: set<Cell>, step: Offset)
    requires TargetTracked(w) && w.tractor.currentTarget.Some?
    ensures var m := HarvestStep(w, obstacles, step);
            || m.tractor.path == w.tractor.path
            || (|w.tractor.path| > 0 && m.tractor.path == w.tractor.path[1..])
  {
    if |w.tractor.path| > 0 {
      assert HarvestStep(w, obstacles, step) == FollowPath(w, step);
    } else {
      assert HarvestStep(w, obstacles, step) == MoveDirectly(w, step);
    }
  }

  /** A route is planned only when a crop is newly picked: while a crop is
      held, a tick keeps the route or drops its first waypoint. */
  lemma UpdateKeepsRouteWhileHolding(w: World, weeds: seq<Weed>, step: Offset)
    requires TargetTracked(w) && w.tractor.currentTarget.Some?
    ensures var w' := Update(w, weeds, step);
            || w'.tractor.path == w.tractor.path
            || (|w.tractor.path| > 0 && w'.tractor.path == w.tractor.path[1..])
  {
    if Harvesting(w.tractor) {
      UpdateHarvesting(w, weeds, step);
      HeldStepKeepsRoute(w, UpdateObstacles(weeds), step);
    }
  }

  /** A tick that is not harvesting moves the agent by `step`, clamped, and
      changes nothing else. */
  lemma UpdateIdle(w: World, weeds: seq<Weed>, step: Offset)
    requires TargetTracked(w) && !Harvesting(w.tractor)
    ensures var w' := Update(w, weeds, step);
            && w'.crops == w.crops
            && w'.tractor.task == w.tractor.task
            && w'.tractor.targetCrops == w.tractor.targetCrops
            && w'.tractor.path == w.tractor.path
            && w'.tractor.currentTarget == w.tractor.currentTarget
            && (0 <= w.tractor.x + step.0 <= Width - TractorWidth ==> w'.tractor.x == w.tractor.x + step.0)
            && (0 <= w.tractor.y + step.1 <= Height - TractorHeight ==> w'.tractor.y == w.tractor.y + step.1)
  {
  }

  /** The harvesting branch either leaves the crop it starts the step with in
      place or drops it. */
  lemma StepKeepsOrDropsTarget(w: World, step: Offset)
    requires TargetTracked(w) && w.tractor.currentTarget.Some?
    ensures var m := if |w.tractor.path| > 0 then FollowPath(w, step) else MoveDirectly(w, step);
            m.tractor.currentTarget.Some? ==> m.tractor.currentTarget == w.tractor.currentTarget
  {
  }

  /** When no crop is held, the harvesting branch picks the first nearest crop
      and keeps it unless it arrives at once. */
  lemma PickStepTakesNearest(w: World, obstacles: set<Cell>, step: Offset)
    requires TargetTracked(w) && Harvesting(w.tractor) && w.tractor.currentTarget.None?
    ensures var m := HarvestStep(w, obstacles, step);
            var t := w.tractor;
            m.tractor.currentTarget.Some? ==>
              exists k :: IsFirstNearest(t.targetCrops, (t.x, t.y), k) && m.tractor.currentTarget == Some(t.targetCrops[k])
  {
    var t := w.tractor;
    var t1 := Acquire(t, obstacles);
    var k :| IsFirstNearest(t.targetCrops, (t.x, t.y), k) && t1.currentTarget == Some(t.targetCrops[k]);
    var w1 := World(t1, w.crops);
    assert HarvestStep(w, obstacles, step) == if |t1.path| > 0 then FollowPath(w1, step) else MoveDirectly(w1, step);
    StepKeepsOrDropsTarget(w1, step);
  }

  /** Picking a crop: when the agent holds none and harvesting goes on, the
      tick takes the first nearest crop of its list; unless it arrives in the
      same tick, it then holds that crop. */
  lemma UpdatePicksNearest(w: World, weeds: seq<Weed>, step: Offset)
    requires TargetTracked(w) && Harvesting(w.tractor) && w.tractor.currentTarget.None?
    ensures var w' := Update(w, weeds, step);
            var t := w.tractor;
            w'.tractor.currentTarget.Some? ==>
              exists k :: IsFirstNearest(t.targetCrops, (t.x, t.y), k) && w'.tractor.currentTarget == Some(t.targetCrops[k])
  {
    UpdateHarvesting(w, weeds, step);
    PickStepTakesNearest(w, UpdateObstacles(weeds), step);
  }

  /** Following the route or heading straight for crop `c` leaves each crop list
      as it was or without the first occurrence of `c`. */
  lemma StepRemovesAtMostTarget(w: World, step: Offset)
    requires TargetTracked(w) && w.tractor.currentTarget.Some?
    ensures var m := if |w.tractor.path| > 0 then FollowPath(w, step) else MoveDirectly(w, step);
            var c := w.tractor.currentTarget.value;
            && (m.crops == w.crops || m.crops == RemoveFirst(w.crops, c))
            && (m.tractor.targetCrops == w.tractor.targetCrops
                || m.tractor.targetCrops == RemoveFirst(w.tractor.targetCrops, c))
  {
  }

  /** The harvesting branch keeps both crop lists free of duplicates. */
  lemma HarvestStepKeepsDistinct(w: World, obstacles: set<Cell>, step: Offset)
    requires TargetTracked(w)
    requires NoDuplicates(w.crops) && NoDuplicates(w.tractor.targetCrops)
    ensures var m := HarvestStep(w, obstacles, step);
            NoDuplicates(m.crops) && NoDuplicates(m.tractor.targetCrops)
  {
    var t := w.tractor;
    var t1 := if t.currentTarget.None? then Acquire(t, obstacles) else t;
    assert t1.targetCrops == t.targetCrops;
    var w1 := World(t1, w.crops);
    if t1.currentTarget.Some? {
      var c := t1.currentTarget.value;
      assert HarvestStep(w, obstacles, step) == if |t1.path| > 0 then FollowPath(w1, step) else MoveDirectly(w1, step);
      StepRemovesAtMostTarget(w1, step);
      RemoveFirstDistinct(w.crops, c);
      RemoveFirstDistinct(t.targetCrops, c);
    } else {
      assert HarvestStep(w, obstacles, step) == w1;
    }
  }

  /** A tick keeps both crop lists free of duplicates. */
  lemma UpdateKeepsDistinct(w: World, weeds: seq<Weed>, step: Offset)
    requires TargetTracked(w)
    requires NoDuplicates(w.crops) && NoDuplicates(w.tractor.targetCrops)
    ensures var w' := Update(w, weeds, step);
            NoDuplicates(w'.crops) && NoDuplicates(w'.tractor.targetCrops)
  {
    if Harvesting(w.tractor) {
      UpdateHarvesting(w, weeds, step);
      HarvestStepKeepsDistinct(w, UpdateObstacles(weeds), step);
    }
  }

  /** Issuing the harvest command again keeps the held crop tracked: the held
      crop has matured, and a crop that has matured is in the new list whenever
      it is still in the world. */
  lemma StartHarvestKeepsTracked(w: World, matured: Crop -> bool)
    requires TargetTracked(w)
    requires w.tractor.currentTarget.Some? ==> matured(w.tractor.currentTarget.value)
    ensures TargetTracked(StartHarvest(w, matured))
  {
  }
}
